=== FILE: README.md ===
# pinoader HTTP client and page scraper, modelled in Dafny

pinoader downloads a Pinterest video. It has four parts:

- It fetches the pin page with a small hand-written HTTP/1.1 client. The client follows redirects and reuses pooled keep-alive connections.
- It trims the page URL to the pin path and fetches again when that changes the URL.
- It scrapes the page for the video URL and, optionally, the thumbnail URL, by searching for fixed anchors.
- It downloads those over TLS into files named after the pin id.

This project models that core as pure functions over strings and maps, and proves what each step promises.

The modules follow the program:

| module | file | what it models |
|---|---|---|
| `Wrappers` | wrappers.dfy | `Option` and `Result` |
| `Text` | text.dfy | `std::string::find`, `find_last_of`, `to_lower` and the header-value trim |
| `Numbers` | numbers.dfy | `std::stol` in bases 10 and 16, with a 32-bit `long`, and `std::to_string` |
| `Buffered` | buffered.dfy | `BufferedStream`: `fill`, `read_line`, `read_exact` |
| `Framing` | framing.dfy | the header loop and the three body strategies of `perform_request` |
| `Wire` | wire.dfy | what a server writes, and proofs that the reader gets it back |
| `Urls` | urls.dfy | `parse_url`, `Location` resolution, and the https guard of `download_file` |
| `Pool` | pool.dfy | `GlobalState`: the connection pool, the DNS cache and the TLS session cache |
| `Client` | client.dfy | the two-attempt retry of `perform_request`, `fetch_url`, and `download_file` |
| `Scrape` | scrape.dfy | `find_video_url` and `find_thumbnail_url` |
| `Pins` | pins.dfy | `extract_pin_id`, `sanitize_pinterest_url`, the file names, and the page fetch in `main` |

The network is a list of non-empty byte segments. Each read returns the next segment, or as much of it as fits in the 16384-byte buffer. After the last segment the peer has ended the stream. Each outside event becomes an input:

- the peek at a pooled socket;
- DNS, socket, connect and the TLS handshake;
- `send`;
- the session OpenSSL returns.

`Deliverable(s)` is every byte a stream can still hand out. Most reader contracts are stated with it.

Errors are values. `FrameError` covers four cases:

- `NoStatusLine`: the retry of `perform_request`.
- `HeaderValueOutOfRange`: the `std::out_of_range` that `line.substr(colon + 2)` throws when the colon is the last byte of a line.
- `BadContentLength`: what `std::stol` throws on a content-length it cannot convert.
- `ReserveLengthError`: the `std::length_error` that `out.reserve(out.size() + n)` throws in `read_exact` when a chunk size is negative and larger than the body read so far. The sum wraps around in the 64-bit `size_t`.

Nothing in the client catches the last three, so in the model they end the request.

## Model

| member | source | states |
|---|---|---|
| Text.ToLower | http_client.cpp:283-286 | same length; no upper-case letter remains; a character is kept exactly when it is not an ASCII capital, and a capital becomes the letter 32 code points after it |
| Text.ToLowerIdempotent | http_client.cpp:283-286 | lower-casing a lower-cased name changes nothing |
| Text.StripLineEnd | http_client.cpp:325 | the result is a prefix that does not end in CR or LF, and everything removed was CR or LF |
| Text.StripLineEndIdempotent | http_client.cpp:325 | trimming twice removes nothing more |
| Numbers.ParseLong | http_client.cpp:328 | `stol` succeeds only on input with a digit of the base, and only with a value inside the 32-bit `long` range |
| Numbers.ParseToDigits | http_client.cpp:340 | round trip: `stol` reads back the digits `ToDigits` writes in base 10 or 16, whatever non-digit follows |
| Numbers.ToDigits | http_client.cpp:180 | the digits denote `n`, are digits of the base, and have no leading zero |
| Numbers.IntToStringInjective | http_client.cpp:180 | different numbers print differently |
| Buffered.Open | http_client.cpp:304 | a fresh stream has an empty buffer and will deliver exactly what the peer sends |
| Buffered.AfterRead | http_client.cpp:110-112 | a read of `n` bytes takes them from the front of the pending bytes and leaves the rest pending, in order |
| Buffered.Fill | http_client.cpp:99-122 | the cursor invariant holds; the unread bytes move to the front unchanged with `pos = 0`; a positive read appends exactly the next pending bytes and loses nothing; a failed read sets `error` and closes the connection; on an empty buffer, the read fails exactly when nothing more will come |
| Buffered.ReadLine | http_client.cpp:124-140 | the line is every deliverable byte through the first `\n`, and the stream then delivers exactly the rest; when no `\n` comes, the line is everything left and the stream has failed |
| Buffered.TerminatedUnique | http_client.cpp:129-134 | two lines that end at their only `\n` and start the same bytes are the same line |
| Buffered.ReadExact | http_client.cpp:142-154 | `reserve` throws exactly when `n` is negative and larger than `out`; a non-positive `n` that does not throw reads nothing; otherwise exactly the next `n` deliverable bytes are appended to `out`, or all of them (and the stream has failed) when fewer remain |
| Buffered.CopyExact | http_client.cpp:145-153 | the copy loop: a non-positive `n` copies nothing; otherwise exactly the next `n` deliverable bytes are appended to `out`, or all of them (and the stream has failed) when fewer remain |
| Framing.SplitHeaderLine | http_client.cpp:321-325 | no colon iff the line has no colon; out of range iff the first colon is the last character; otherwise the name is the lower-cased text before the first colon and the value is the text from two past it, trimmed of CR and LF |
| Framing.ApplyHeader | http_client.cpp:321-331 | one header line throws exactly when it is cut at its colon or is a content-length that `stol` rejects |
| Framing.ApplyHeaders | http_client.cpp:317-332 | the header loop throws exactly when some line does, and never as a missing status line |
| Framing.ApplyHeaderFields | http_client.cpp:326 | a line stores exactly its own name and value, and a line without a colon stores nothing |
| Framing.HeadersLastWins | http_client.cpp:326 | a later duplicate wins: each stored name is one some line named, and its value is the one of the LAST such line |
| Framing.ApplyHeaderFlags | http_client.cpp:329-330 | one line sets `chunked` or `connection_close` only by naming that header with a value containing `chunked` or `close` |
| Framing.HeaderFlags | http_client.cpp:329-330 | `chunked` and `connection_close` are set iff ANY line asks for them, never only the last |
| Framing.AnyFieldHasLast | http_client.cpp:317-332 | a line asks for a flag iff an earlier line or the last one does |
| Framing.ContentLengthIsLast | http_client.cpp:328 | `content_len` is what `stol` makes of the LAST content-length value, or `-1` without one |
| Framing.ReadHeaderLines | http_client.cpp:317-319 | every byte taken lies in a returned line or in the blank line (`\r\n`, `\n` or empty) that ends the loop; the lines are successive `read_line` results: none is blank, each ends at its only newline except a last one cut short by the end of the stream, and an empty blank line means nothing is left |
| Framing.HeaderLinesNotBlank | http_client.cpp:317-319 | the loop stops at the FIRST blank line: no returned line is blank, and each is a single `read_line` result ending at its only newline, except a last line cut short by the end of the stream |
| Framing.HeaderBlockUnique | http_client.cpp:317-319 | whenever the bytes are successive `read_line` lines, none blank, then a blank line (`\r\n`, `\n`, or nothing at the end of the stream) and the rest, the loop returns exactly those lines and that blank line and leaves the rest |
| Framing.LineOfUnterminated | http_client.cpp:124-139 | `read_line` on bytes without a newline returns all of them and the stream ends |
| Framing.ChunkStep | http_client.cpp:338-343 | a round throws exactly when its size line reads as a negative size larger than the body so far, and then with the `reserve` error; a round that goes on only extends the body and consumes bytes |
| Framing.DecodeChunks | http_client.cpp:337-344 | the chunked loop ends, either with a body that extends the one it started from or with the `reserve` error |
| Framing.ReadToClose | http_client.cpp:345-353 | corrected close-delimited body: every deliverable byte, the buffered ones first; the connection is closed afterwards |
| Framing.RawReadToClose | http_client.cpp:346-352 | the close-delimited loop as written: it gets only the bytes the peer has still to send, and the buffered bytes are missing from the body |
| Framing.ReadBody | http_client.cpp:334-353 | only a chunked body can throw, and only the `reserve` error; a body that is read leaves a valid stream |
| Framing.ReadBodyAsWritten | http_client.cpp:334-353 | the body reader as written differs from the corrected one only for a close-delimited body |
| Framing.RawReadLosesBuffered | http_client.cpp:346-351 | for a close-delimited body, the corrected body is the buffered bytes followed by the raw one, so the two differ exactly when bytes are buffered |
| Framing.ReadResponse | http_client.cpp:304-355 | no status line iff nothing is delivered; otherwise the response carries the given status code |
| Wire.ReadLineOf | http_client.cpp:124-140 | `read_line` returns exactly a terminated line at the front of the stream and leaves the rest |
| Wire.SplitFieldLine | http_client.cpp:321-325 | a header line as a server writes it splits into its lower-cased name and its value |
| Wire.HeaderBlockRoundTrip | http_client.cpp:317-332 | round trip: written header lines followed by CRLF read back as exactly those lines, and the stream continues right after the blank line |
| Wire.ChunkedRoundTrip | http_client.cpp:337-344 | round trip of the chunked coding (section 7.1 of RFC 9112): decoding appends the chunks in order and stops right after the last-chunk and its empty line |
| Wire.NegativeChunkSizeThrows | http_client.cpp:338-342 | a chunked response whose first size line is `-1` ends in the `reserve` error instead of a response |
| Wire.MinusOneParses | http_client.cpp:340 | `stol` reads the size line `-1` in base 16 as -1 |
| Wire.UnreadableSizeEnds | http_client.cpp:340 | a size line `stol` cannot convert ends the loop with the body read so far |
| Wire.ZeroSizeEnds | http_client.cpp:341 | the size zero consumes one more line and ends the loop with the body unchanged |
| Wire.LengthDelimitedRoundTrip | http_client.cpp:334-335 | with a content-length, the body is exactly the next `content_len` bytes and nothing after them is consumed |
| Wire.ChunkedResponseRoundTrip | http_client.cpp:336-344 | with `chunked` and no content-length, the body is the concatenated chunks |
| Wire.CloseDelimitedRoundTrip | http_client.cpp:345-353 | with neither framing header and the corrected close-delimited reader (see Findings), the body is everything after the header block and the connection must close |
| Wire.ContentLengthMessage | http_client.cpp:328-335 | a `Content-Length: n` response reads back its body and keeps the connection open |
| Wire.LengthBeatsChunked | http_client.cpp:334-336 | with both `Transfer-Encoding: chunked` and `Content-Length`, the length decides the body (the reverse of section 6.3 of RFC 9112) |
| Wire.ChunkedMessage | http_client.cpp:329-344 | a `Transfer-Encoding: chunked` response reads back the concatenated chunks and keeps the connection open |
| Wire.CloseMessage | http_client.cpp:345-353 | with the corrected close-delimited reader (see Findings), a response without framing headers takes the rest of the input as its body and closes the connection |
| Wire.CloseHeaderMessage | http_client.cpp:330-355 | `Connection: close` next to a content-length closes the connection after the body |
| Wire.ShortResponseLosesBody | http_client.cpp:346-351 | counterexample: a response that arrives in one read loses its body `hello` with the loop as written, and keeps it with the corrected reader |
| Urls.ParseUrl | http_client.cpp:266-281 | fails iff there is no `://`; otherwise the protocol is the text before the first `://`, the host has no `/`, the path starts with `/` (it is `/` when no `/` follows the host), the parts rebuild the URL, and the port is 443 for `https` and 80 otherwise |
| Urls.ParseUrlText | http_client.cpp:266-281 | round trip: a URL built from a well-formed protocol, host and path parses back to them |
| Urls.ParseUrlBare | http_client.cpp:272-274 | a URL without a path gets the path `/` |
| Urls.ResolveLocation | http_client.cpp:373-378 | a `Location` starting with `http` is kept; any other becomes protocol, `://`, host, a `/`, and ends with the value itself |
| Urls.ResolveRelative | http_client.cpp:374-376 | a relative `Location` keeps protocol, host and port, and its path is the value made absolute from the root, not merged with the base path as section 5.2 of RFC 3986 would |
| Urls.DownloadAllowed | http_client.cpp:392 | the guard passes exactly the URLs that parse with protocol `https`, and each has port 443 |
| Urls.DownloadAllowedText | http_client.cpp:392 | for a well-formed URL the guard passes exactly the protocol `https` |
| Pool.KeyInjective | http_client.cpp:180 | equal pool keys mean the same host and the same port |
| Pool.OnePerHostPort | http_client.cpp:180-263 | in a pool filed under its keys, there is at most one connection per host and port |
| Pool.SaveSession | http_client.cpp:170-177 | a returned session replaces the host's cached one; no session changes nothing; other hosts are untouched |
| Pool.Resolve | http_client.cpp:208-222 | a cached address is reused; otherwise a looked-up one is added; DNS entries are never overwritten or removed; it fails iff the host is uncached and the lookup fails |
| Pool.GetConnection | http_client.cpp:179-264 | a returned connection is open and is the pool's entry for the key; a failure leaves no entry for the key; other keys and other hosts' sessions are untouched; DNS entries are write-once; an open, live entry is returned without any change; otherwise a new connection is made exactly when the host's address is cached or looked up, `socket` and `connect` succeed, and for TLS the handshake succeeds; a pool filed under its keys stays so |
| Pool.FreshConnection | http_client.cpp:204-263 | a new connection is the requested one, offers the host's cached session, leaves the host's address cached, and its new session is cached |
| Pool.ClosedNotReused | http_client.cpp:182-202 | a closed entry is never handed out again: whatever comes back is a connection made for the request |
| Pool.MarkClosed | http_client.cpp:56-60 | `close_conn` through the pool's pointer: the entry stays, marked closed, so it is no longer reusable; nothing else changes |
| Client.Attempts | http_client.cpp:292-358 | one or two attempts; never ends on a missing status line; a framed response is the one returned; the connection stays reusable exactly when a response was framed that did not ask to close; DNS entries are write-once and other pool keys are untouched |
| Client.PerformRequest | http_client.cpp:288-359 | at most two attempts; the response returned, or the error thrown, is what reading the last attempt's input gives, and a response that was not framed is the empty default one; the connection stays pooled open exactly for a framed response that did not ask to close |
| Client.AttemptsAnswered | http_client.cpp:292-358 | a framed response, or an error other than a missing status line, is what reading the last attempt's input gives |
| Client.AttemptEnds | http_client.cpp:292-355 | an attempt without a connection ends the loop with the empty response; one that sends and whose input has a status line ends it with what that input reads as |
| Client.NoConnectionNoRetry | http_client.cpp:292-294 | no connection on the first attempt returns the empty response with no second attempt |
| Client.SecondAttemptAnswers | http_client.cpp:292-355 | after a first attempt that connected but got no status line, the second attempt's connection and input decide the response |
| Client.FirstAttemptAnswers | http_client.cpp:299-355 | when the first attempt connects, sends, and its input has a status line, there is no second attempt and the result is what that input reads as |
| Client.SilentPeerRetried | http_client.cpp:299-308 | a first attempt whose send fails or whose peer sends nothing is followed by a second |
| Client.RoundOf | http_client.cpp:367-383 | a round goes on iff the URL parses and the response is a 3xx with a `location`, and then to that `location` resolved against the URL's protocol and host; otherwise a 200 returns its body, and any other response or a URL that does not parse returns nothing |
| Client.FetchLoop | http_client.cpp:363-385 | at most `max_redirects` rounds; the visited URLs start at the initial one, and `final_url` is the last one visited |
| Client.FetchChain | http_client.cpp:372-378 | each visited URL is where the round before it redirected |
| Client.FetchStops | http_client.cpp:379-385 | the loop leaves the chain only at a round that stops, returning its body, or when the rounds run out on a redirect, returning nothing |
| Client.FetchUrl | http_client.cpp:361-386 | `fetch_url` runs at most `max_redirects` rounds and sets `final_url` to the last URL it tried |
| Client.OkBodyReturned | http_client.cpp:379-380 | a 200 that is not a redirect, for the final URL in the last round, is exactly the body `fetch_url` returns |
| Client.RedirectChain | http_client.cpp:372-378 | every visited URL after the first is the resolved `location` of the redirect the URL before it got |
| Client.BodyFromOk | http_client.cpp:379-380 | a non-empty body comes from a 200 response to the final URL in the last round |
| Client.StopWithBody | http_client.cpp:377-378 | a round that stops with a non-empty body got a 200 that is not a redirect, and that body is the response's |
| Client.RedirectsExhaust | http_client.cpp:363-385 | when every URL `fetch_url` visits gets a redirect, all `max_redirects` rounds are used and the body is empty |
| Client.LoopExhausts | http_client.cpp:362-383 | for any round behaviour, a loop in which every visited URL follows uses all rounds and returns nothing |
| Client.LastRound | http_client.cpp:362-383 | for any round behaviour, a non-empty body is what the last round stopped with, and a stopping last round's body is returned |
| Client.FinalRoundStops | http_client.cpp:362-383 | a non-empty body from `fetch_url` is what its last round stopped with |
| Client.FinalRoundBody | http_client.cpp:362-383 | when the last round of `fetch_url` stops, its body is returned |
| Client.RelativeRedirectThenOk | http_client.cpp:372-380 | a relative redirect followed by a 200 visits two URLs, the second the root-based one, and returns the second body |
| Client.ReceiveFile | http_client.cpp:400-410 | no status line iff nothing arrives; otherwise what arrived is exactly the status line, the header lines, the blank line that ends them, and then the file's bytes |
| Client.DownloadFile | http_client.cpp:388-414 | non-https URLs fail without touching the state; success iff the URL is https, a connection is obtained and some bytes arrive; the written bytes are exactly the body that `read_to_file` takes from what arrived; the connection is closed afterwards |
| Scrape.QuotedAfter | parser.cpp:28-39 | the text after the first marker at or after `from`, up to the next quote: it ends at a quote and holds none; nothing when there is no marker or no later quote |
| Scrape.QuotedFrom | parser.cpp:34-39 | the text from a position up to the next quote, or nothing when no quote follows |
| Scrape.Yield | parser.cpp:23-41 | an anchor yields only when it occurs; then it yields the quoted text after the first `"url":"` at or after the anchor's first occurrence |
| Scrape.FirstYieldIs | parser.cpp:21-43 | the anchors are tried in order: the result is what the first yielding anchor yields, and nothing iff none yields |
| Scrape.FindVideoUrl | parser.cpp:6-47 | the URL holds no quote; it is the text of the first anchor, in list order, that yields, and empty when none yields |
| Scrape.ThumbnailSpan | parser.cpp:51-86 | any result is quoted text; a complete Open Graph tag wins whatever the JSON holds; without one, the quoted text after the `"thumbnail":"` found from the JSON anchor on; without either there is nothing |
| Scrape.ThumbMarkerInAnchor | parser.cpp:71-73 | the `"thumbnail":"` found in the fallback is the one inside the anchor itself |
| Scrape.ThumbnailFallback | parser.cpp:68-80 | without a complete Open Graph tag, the thumbnail starts right after the first JSON anchor and runs to the next quote |
| Scrape.FindThumbnailUrl | parser.cpp:51-86 | the Open Graph image's quoted text when its tag is complete; otherwise the quoted text after the `"thumbnail":"` found from the JSON anchor on; empty when neither search finds a marker and a closing quote; always quote-free |
| Pins.ExtractPinId | main.cpp:38-44 | empty without `/pin/`; otherwise the text after the first `/pin/` up to the next `/` or the end, which holds no `/` |
| Pins.SanitizeUrl | main.cpp:46-56 | a prefix of the input: the input itself without `/pin/` or without a `/` after the id, otherwise ending in the `/` that closes the id |
| Pins.SanitizeIdempotent | main.cpp:46-56 | sanitizing twice is sanitizing once |
| Pins.SanitizeKeepsPinId | main.cpp:38-56 | sanitizing keeps the pin id |
| Pins.ThumbnailName | main.cpp:143-153 | ends in `.jpg`; a custom name loses everything from its last `.`, or gets `.jpg` appended without one; with no custom name it is the pin id (or `pinterest_video`) plus `.jpg` |
| Pins.VideoName | main.cpp:172-178 | a custom name as given; otherwise the pin id (or `pinterest_video`) plus `.mp4` |
| Pins.ThumbnailFollowsVideo | main.cpp:143-178 | the thumbnail's name is the video's name with its extension replaced by `.jpg` |
| Pins.ResolvePage | main.cpp:114-125 | the URL the page comes from is sanitized, is the sanitized landing URL of the first fetch, and keeps its pin id |

## Left out

- Sockets, `select`, the `recv(MSG_PEEK)` probe, `SSL_connect`, `SSL_read` and `SSL_write` are not modelled. Their outcomes are inputs: a list of byte segments, and booleans in `ConnectEnv` and `AttemptEnv`.
- The `SSL_CTX` setup, `SystemInitializer`, and the `GlobalState` destructor are foreign-library setup and teardown.
- Freeing a replaced `SSL_SESSION` is memory management with no visible effect here.
- Client.ReceiveFile: `read_to_file` writes to an `std::ofstream`. Here the written bytes are returned instead. It first writes the buffered bytes `buffer[pos..end)`, then reads the same connection directly, so the file gets every byte after the header block.
- The `ip` string from `inet_ntop` and the socket options (timeouts, `TCP_NODELAY`) are not modelled. Only whether the lookup succeeds matters here.
- `get_random_user_agent` and the text of the request are left out, because they are randomness and output only. The model keeps only whether the send wrote anything.
- `sscanf("HTTP/%*f %d")` is not modelled: the status code is an input of each attempt. Parsing the version needs floating point.
- Numbers.ParseLong models `std::stol` in full: whitespace, sign, `0x`, digits, and the 32-bit range. It does not restrict the input to plain digits. A content-length `stol` rejects is the error `BadContentLength`, not a precondition. An out-of-range `substr` is likewise `HeaderValueOutOfRange`.
- Urls.ResolveLocation requires a non-empty `Location`, because `loc.front()` on an empty string is undefined behaviour. Client.RoundOf and Client.FetchUrl require the same of every followed redirect (`LocationsNonEmpty`).
- Buffered.Valid requires the peer's read results to be non-empty, since a read of zero bytes is the end of the stream.
- Framing.ReadResponse does not say which response it builds. That is stated by the Wire round trips, per framing kind.
- Framing.ReadResponse reads a close-delimited body with the corrected reader, Framing.ReadToClose: the body is the rest of the input. The loop at http_client.cpp:346-351 as written is Framing.RawReadToClose, and the Findings table shows where the two differ. The Wire round trips for close-delimited responses are about the corrected reader.
- Buffered.ReadExact: a `reserve` of a large positive target can also throw `std::bad_alloc` when memory runs out. Memory is not modelled.
- Client.PerformRequest takes the two attempts' inputs up front. A new `BufferedStream` is made for every response, so bytes a server sends beyond one response are dropped with it. The model keeps only the framed response's own stream.
- Client.FetchUrl: each call of `perform_request` is the abstract `perform(round, url)`. The pool state it threads through is not followed across rounds.
- Pins.ResolvePage does not model the `html_content.empty()` exit, the logger, or the download calls that follow in `main`.
- The argument loop, `print_help`, the log level and the timing in `main.cpp` are console glue.
- `logger.h` is console output only.
- An uncaught exception ends the program. Here it is an `Err` result that stops the request.

## Findings

| source | as written | input that shows it | evidently intended | confidence | as-written member | corrected member |
|---|---|---|---|---|---|---|
| http_client.cpp:346-351 | the close-delimited body is read with `recv`/`SSL_read` on the connection, bypassing the `BufferedStream`, so body bytes that arrived in the same read as the header block are skipped | the whole response `HTTP/1.1 200 OK\r\n\r\nhello` arriving in one read: the body comes back empty | the body is every byte after the blank line, the buffered ones first, as `read_to_file` does at http_client.cpp:157-160 | not executed | Framing.RawReadToClose, Framing.ReadBodyAsWritten, Wire.ShortResponseLosesBody | Framing.ReadToClose (used by Framing.ReadBody) |

=== FILE: buffered.dfy ===
/** `BufferedStream` of http_client.cpp: a 16384-byte read-ahead buffer with `pos`/`end`
    cursors over one connection. The connection's peer is an abstract list of the
    non-empty byte segments it will make available, read after read; once the list
    is used up, the next read reports end of stream. A read asks for at most the free
    room of the buffer and gets at most one segment, the rest of which stays pending. */
module Buffered {
  import opened Wrappers
  import opened Text

  /** `sizeof(BufferedStream::buffer)`. */
  const Capacity: nat := 16384

  function Concat(ss: seq<string>): string {
    if |ss| == 0 then [] else ss[0] + Concat(ss[1..])
  }

  predicate NonEmptySegments(peer: seq<string>) {
    forall i :: 0 <= i < |peer| ==> |peer[i]| > 0
  }

  /** `buf` is `buffer[0..end)`, so `end == |buf|`; `closed` is the connection's
      `is_closed` flag; `peer` is what the other side has still to send. */
  datatype Stream = Stream(buf: string, pos: nat, error: bool, closed: bool, peer: seq<string>)

  /** The cursor invariant `0 <= pos <= end <= 16384`; an errored stream has closed its connection. */
  predicate Valid(s: Stream) {
    && s.pos <= |s.buf| <= Capacity
    && NonEmptySegments(s.peer)
    && (s.error ==> s.closed)
  }

  /** `buffer[pos..end)`. */
  function Unread(s: Stream): string
    requires s.pos <= |s.buf|
  {
    s.buf[s.pos..]
  }

  /** Every byte the line and exact-length readers can still hand out: none once the
      stream has failed, only the buffered ones once the connection is closed. */
  function Deliverable(s: Stream): string
    requires s.pos <= |s.buf|
  {
    if s.error then [] else if s.closed then Unread(s) else Unread(s) + Concat(s.peer)
  }

  /** A fresh `BufferedStream` over a connection. */
  function Open(peer: seq<string>, closed: bool): (s: Stream)
    requires NonEmptySegments(peer)
    ensures Valid(s) && Unread(s) == []
    ensures Deliverable(s) == if closed then [] else Concat(peer)
  {
    Stream([], 0, false, closed, peer)
  }

  lemma ConcatCons(x: string, rest: seq<string>)
    ensures Concat([x] + rest) == x + Concat(rest)
  {
    assert ([x] + rest)[1..] == rest;
  }

  /** The bytes a read of `n` bytes from the first segment leaves pending. */
  function AfterRead(peer: seq<string>, n: nat): (rest: seq<string>)
    requires |peer| > 0 && 0 < n <= |peer[0]| && NonEmptySegments(peer)
    ensures NonEmptySegments(rest)
    ensures Concat(peer) == peer[0][..n] + Concat(rest)
  {
    var seg := peer[0];
    if n == |seg| then
      assert seg[..n] == seg;
      peer[1..]
    else
      ConcatCons(seg[n..], peer[1..]);
      assert seg == seg[..n] + seg[n..];
      [seg[n..]] + peer[1..]
  }

  /** `fill`: compacts the unread bytes to the front, then performs one read into the free
      room. The result is the number of bytes read, 0 standing for every `r <= 0`. */
  function Fill(s: Stream): (r: (Stream, nat))
    requires Valid(s)
    ensures Valid(r.0) && r.0.pos == 0
    ensures |r.0.buf| == |Unread(s)| + r.1 && r.1 <= |Concat(s.peer)|
    ensures r.0.buf[..|Unread(s)|] == Unread(s)
    ensures r.1 > 0 ==> !r.0.error && r.0.closed == s.closed
    ensures r.1 > 0 ==> r.0.buf[|Unread(s)|..] == Concat(s.peer)[..r.1]
    ensures r.1 > 0 ==> Deliverable(r.0) == Deliverable(s)
    ensures r.1 == 0 ==> r.0.buf == Unread(s) && r.0.error && r.0.closed && Deliverable(r.0) == []
    ensures Unread(s) == [] ==> (r.1 == 0 <==> Deliverable(s) == [])
  {
    var kept := Unread(s);
    var room := Capacity - |kept|;
    if s.closed || room == 0 || |s.peer| == 0 then
      (Stream(kept, 0, true, true, s.peer), 0)
    else
      var n := Min(room, |s.peer[0]|);
      var peer' := AfterRead(s.peer, n);
      var got := s.peer[0][..n];
      assert Concat(s.peer)[..n] == got;
      var s' := Stream(kept + got, 0, false, s.closed, peer');
      assert Unread(s') == kept + got;
      assert Deliverable(s') == kept + got + Concat(peer');
      (s', n)
  }

  /** A line ending in its only `\n`. */
  predicate Terminated(line: string) {
    |line| > 0 && line[|line| - 1] == '\n' && Lacks(line[..|line| - 1], '\n')
  }

  /** What `read_line` takes out of the byte sequence `d`: everything through the first
      newline, or, when there is none, all of `d`, after which the stream has failed. */
  predicate IsLineOf(d: string, line: string, rest: string, failed: bool) {
    && d == line + rest
    && if failed then rest == [] && Lacks(line, '\n') else Terminated(line)
  }

  /** A line and what it leaves behind partition the bytes it was read from. */
  lemma LineSplits(d: string, line: string, rest: string, failed: bool)
    requires IsLineOf(d, line, rest, failed)
    ensures d == line + rest
    ensures line == [] <==> d == []
  {
  }

  /** Two lines ending at their only newline that start the same bytes are the same line. */
  lemma TerminatedUnique(a: string, x: string, b: string, y: string)
    requires Terminated(a) && Terminated(b) && a + x == b + y
    ensures a == b
  {
    var ab := a + x;
    assert ab[|a| - 1] == '\n' && ab[|b| - 1] == '\n';
    assert forall j :: 0 <= j < |a| - 1 ==> ab[j] != '\n' by {
      forall j | 0 <= j < |a| - 1 ensures ab[j] != '\n' { assert ab[j] == a[..|a| - 1][j]; }
    }
    assert forall j :: 0 <= j < |b| - 1 ==> ab[j] != '\n' by {
      forall j | 0 <= j < |b| - 1 ensures ab[j] != '\n' { assert ab[j] == b[..|b| - 1][j]; }
    }
    assert |a| == |b|;
    assert a == (a + x)[..|a|] == b;
  }

  /** Bytes that start with a terminated line give exactly that line. */
  lemma LineOfTerminated(d: string, l: string, r: string, failed: bool, line: string, rest: string)
    requires IsLineOf(d, l, r, failed) && Terminated(line) && d == line + rest
    ensures l == line && r == rest && !failed
  {
    assert d[|line| - 1] == '\n';
    assert !Lacks(d, '\n');
    assert !failed;
    TerminatedUnique(l, r, line, rest);
    assert d[|l|..] == r && d[|line|..] == rest;
  }

  lemma LineInPrefix(u: string, p: string, k: nat)
    requires k < |u| && u[k] == '\n' && Lacks(u[..k], '\n')
    ensures IsLineOf(u + p, u[..k + 1], u[k + 1..] + p, false)
  {
    assert u[..k + 1][..k] == u[..k];
    assert u + p == u[..k + 1] + (u[k + 1..] + p);
  }

  lemma LineAfterPrefix(u: string, d: string, line: string, rest: string, failed: bool)
    requires Lacks(u, '\n')
    requires IsLineOf(d, line, rest, failed)
    ensures IsLineOf(u + d, u + line, rest, failed)
  {
    var l := u + line;
    assert u + d == l + rest;
    if failed {
      forall j | 0 <= j < |l| ensures l[j] != '\n' {
        if j >= |u| { assert l[j] == line[j - |u|]; }
      }
    } else {
      var m := l[..|l| - 1];
      assert m == u + line[..|line| - 1];
      forall j | 0 <= j < |m| ensures m[j] != '\n' {
        if j >= |u| { assert m[j] == line[..|line| - 1][j - |u|]; }
      }
    }
  }

  /** `read_line`: the next line including its `\n`, refilling the buffer as often as
      needed; the partial line when the stream fails first. */
  function ReadLine(s: Stream): (r: (string, Stream))
    requires Valid(s)
    ensures Valid(r.1)
    ensures IsLineOf(Deliverable(s), r.0, Deliverable(r.1), r.1.error)
    decreases |Deliverable(s)|, if s.pos < |s.buf| then 0 else 1
  {
    if s.error then ([], s)
    else if s.pos >= |s.buf| then
      var (s1, n) := Fill(s);
      if n == 0 then ([], s1) else ReadLine(s1)
    else
      match FindChar(s.buf, '\n', s.pos)
      case Some(k) =>
        NewlineBuffered(s, k);
        (s.buf[s.pos..k + 1], s.(pos := k + 1))
      case None =>
        var s' := s.(pos := |s.buf|);
        var (rest, s2) := ReadLine(s');
        NoNewlineBuffered(s, rest, s2);
        (Unread(s) + rest, s2)
  }

  lemma NewlineBuffered(s: Stream, k: nat)
    requires Valid(s) && !s.error && s.pos <= k < |s.buf| && s.buf[k] == '\n'
    requires forall j :: s.pos <= j < k ==> s.buf[j] != '\n'
    ensures IsLineOf(Deliverable(s), s.buf[s.pos..k + 1], Deliverable(s.(pos := k + 1)), false)
  {
    var u := Unread(s);
    var p := if s.closed then [] else Concat(s.peer);
    var i := k - s.pos;
    assert Deliverable(s) == u + p;
    assert Lacks(u[..i], '\n') by {
      forall j | 0 <= j < i ensures u[..i][j] != '\n' {
        assert u[..i][j] == s.buf[s.pos + j];
      }
    }
    LineInPrefix(u, p, i);
    assert u[..i + 1] == s.buf[s.pos..k + 1];
    assert Unread(s.(pos := k + 1)) == u[i + 1..];
  }

  lemma NoNewlineBuffered(s: Stream, rest: string, s2: Stream)
    requires Valid(s) && Valid(s2) && !s.error
    requires forall j :: s.pos <= j < |s.buf| ==> s.buf[j] != '\n'
    requires IsLineOf(Deliverable(s.(pos := |s.buf|)), rest, Deliverable(s2), s2.error)
    ensures IsLineOf(Deliverable(s), Unread(s) + rest, Deliverable(s2), s2.error)
  {
    var s' := s.(pos := |s.buf|);
    assert Deliverable(s) == Unread(s) + Deliverable(s');
    LineAfterPrefix(Unread(s), Deliverable(s'), rest, Deliverable(s2), s2.error);
  }

  /** `out.reserve(out.size() + n)` throws: `n` is a 32-bit `long` converted to the 64-bit
      `size_t`, so when it is negative and larger than `out` the sum wraps around to at
      least 2^64 - 2^31, beyond the largest size a string may have, and `reserve` throws
      `std::length_error`. Otherwise the target is at most what `out` already needs. */
  predicate ReserveThrows(outLen: nat, n: int) {
    outLen + n < 0
  }

  /** `read_exact`: the `reserve` in front of the loop either throws (`None`) or lets the
      copy loop run. A negative `n` that does not throw reads nothing. */
  function ReadExact(s: Stream, out: string, n: int): (r: Option<(string, Stream)>)
    requires Valid(s)
    ensures r.None? <==> ReserveThrows(|out|, n)
    ensures r.Some? ==> Valid(r.value.1)
    ensures n <= 0 && !ReserveThrows(|out|, n) ==> r == Some((out, s))
    ensures 0 < n <= |Deliverable(s)| ==>
      r.Some? && r.value.0 == out + Deliverable(s)[..n] && Deliverable(r.value.1) == Deliverable(s)[n..] && !r.value.1.error
    ensures n > |Deliverable(s)| ==>
      r.Some? && r.value.0 == out + Deliverable(s) && Deliverable(r.value.1) == [] && r.value.1.error
  {
    if ReserveThrows(|out|, n) then None else Some(CopyExact(s, out, n))
  }

  /** The copy loop of `read_exact`: appends to `out` the next `n` bytes, refilling as
      needed, and fewer only when the stream fails first; a non-positive `n` copies
      nothing. */
  function CopyExact(s: Stream, out: string, n: int): (r: (string, Stream))
    requires Valid(s)
    ensures Valid(r.1)
    ensures n <= 0 ==> r == (out, s)
    ensures 0 < n <= |Deliverable(s)| ==>
      r.0 == out + Deliverable(s)[..n] && Deliverable(r.1) == Deliverable(s)[n..] && !r.1.error
    ensures n > |Deliverable(s)| ==>
      r.0 == out + Deliverable(s) && Deliverable(r.1) == [] && r.1.error
    decreases if n <= 0 then 0 else n, if s.pos < |s.buf| then 0 else 1
  {
    if n <= 0 || s.error then (out, s)
    else if s.pos >= |s.buf| then
      var (s1, got) := Fill(s);
      if got == 0 then (out, s1) else CopyExact(s1, out, n)
    else
      var take := Min(|s.buf| - s.pos, n);
      var s' := s.(pos := s.pos + take);
      var chunk := s.buf[s.pos..s.pos + take];
      assert Deliverable(s) == chunk + Deliverable(s');
      var r := CopyExact(s', out + chunk, n - take);
      TakeThen(Deliverable(s), chunk, Deliverable(s'), out, n, r.0, Deliverable(r.1));
      r
  }

  /** Taking the buffered `c` first and then the rest from `dr` is taking from `c + dr`. */
  lemma TakeThen(d: string, c: string, dr: string, out: string, n: int, got: string, left: string)
    requires d == c + dr && 0 < |c| <= n
    requires n - |c| <= 0 ==> got == out + c && left == dr
    requires 0 < n - |c| <= |dr| ==> got == out + c + dr[..n - |c|] && left == dr[n - |c|..]
    requires n - |c| > |dr| ==> got == out + c + dr && left == []
    ensures n <= |d| ==> got == out + d[..n] && left == d[n..]
    ensures n > |d| ==> got == out + d && left == []
  {
    if n <= |d| {
      assert d[..n] == c + dr[..n - |c|];
      assert d[n..] == dr[n - |c|..];
    }
  }
}

=== FILE: client.dfy ===
/** `perform_request`'s retry around one response, the redirect loop of `fetch_url`, and
    `download_file` (http_client.cpp). The network is replaced by what each attempt meets. */
module Client {
  import opened Wrappers
  import opened Text
  import opened Buffered
  import opened Framing
  import opened Urls
  import opened Pool

  /** What one attempt of `perform_request` meets: the outcome of `get_connection`, whether
      `send`/`SSL_write` wrote anything, the bytes the peer then sends (in the pieces one
      read returns) before it ends the stream, and the code `sscanf` takes from the status
      line. */
  datatype AttemptEnv = AttemptEnv(connect: ConnectEnv, sent: bool, incoming: seq<string>, status: int)

  /** Every attempt's input is a sequence of non-empty reads. */
  predicate WellFormedEnvs(envs: seq<AttemptEnv>) {
    forall i :: 0 <= i < |envs| ==> NonEmptySegments(envs[i].incoming)
  }

  /** The result of `perform_request`: the response (or the exception that ends the
      program), the global state afterwards, how many attempts ran, and the response as
      framed when one was read. */
  datatype Outcome = Outcome(response: Result<HttpResponse, FrameError>, state: GlobalState, attempts: nat, framed: Option<Framed>)

  /** Whether the connection must be closed after a framed response: the header asked for it,
      the body ran to the end of the stream, or a failed read already closed it. */
  predicate MustClose(f: Framed) {
    f.closeConnection || f.rest.closed
  }

  /** The attempt that ended the request read the framed response, or the exception, from
      its own input. */
  predicate AnsweredBy(o: Outcome, envs: seq<AttemptEnv>) {
    1 <= o.attempts <= |envs| && NonEmptySegments(envs[o.attempts - 1].incoming) &&
    var e := envs[o.attempts - 1];
    var read := ReadResponse(Open(e.incoming, false), e.status);
    (o.framed.Some? ==> read == Ok(o.framed.value)) && (o.response.Err? ==> read == Err(o.response.error))
  }

  /** The `retry` loop of `perform_request` from attempt `retry` on. No connection returns
      the empty response; a failed send or a missing status line closes the connection and
      tries again; an exception ends everything. */
  function Attempts(g: GlobalState, host: string, port: int, tls: bool, envs: seq<AttemptEnv>, retry: nat)
    : (o: Outcome)
    requires retry <= 2 && |envs| == 2 && WellFormedEnvs(envs)
    requires retry > 0 ==> !Reusable(g, Key(host, port))
    ensures retry <= o.attempts <= 2 && (retry < 2 ==> retry < o.attempts)
    ensures o.response != Err(NoStatusLine)
    ensures WellKeyed(g.pool) ==> WellKeyed(o.state.pool)
    ensures DnsExtends(g.dns, o.state.dns, host)
    ensures o.framed.Some? ==> o.response == Ok(o.framed.value.response)
    ensures o.framed.None? && o.response.Ok? ==> o.response.value == EmptyResponse
    ensures o.response.Ok? ==>
      (Reusable(o.state, Key(host, port)) <==> o.framed.Some? && !MustClose(o.framed.value))
    ensures forall k :: k != Key(host, port) ==>
      (k in o.state.pool <==> k in g.pool) && (k in o.state.pool ==> o.state.pool[k] == g.pool[k])
    decreases 2 - retry
  {
    if retry == 2 then Outcome(Ok(EmptyResponse), g, 2, None)
    else
      var e := envs[retry];
      var key := Key(host, port);
      var (conn, g1) := GetConnection(g, host, port, tls, e.connect);
      if conn.None? then Outcome(Ok(EmptyResponse), g1, retry + 1, None)
      else if !e.sent then Attempts(MarkClosed(g1, key), host, port, tls, envs, retry + 1)
      else
        match ReadResponse(Open(e.incoming, false), e.status)
        case Err(NoStatusLine) => Attempts(MarkClosed(g1, key), host, port, tls, envs, retry + 1)
        case Err(err) => Outcome(Err(err), g1, retry + 1, None)
        case Ok(f) =>
          Outcome(Ok(f.response), if MustClose(f) then MarkClosed(g1, key) else g1, retry + 1, Some(f))
  }

  /** The response comes from the input of the attempt that ended the loop. */
  lemma {:induction false} AttemptsAnswered(g: GlobalState, host: string, port: int, tls: bool,
                                            envs: seq<AttemptEnv>, retry: nat)
    requires retry <= 2 && |envs| == 2 && WellFormedEnvs(envs)
    requires retry > 0 ==> !Reusable(g, Key(host, port))
    ensures AnsweredBy(Attempts(g, host, port, tls, envs, retry), envs)
    decreases 2 - retry
  {
    var o := Attempts(g, host, port, tls, envs, retry);
    if retry == 2 {
      assert o == Outcome(Ok(EmptyResponse), g, 2, None);
      assert NonEmptySegments(envs[1].incoming);
    } else {
      var e := envs[retry];
      assert NonEmptySegments(e.incoming);
      var key := Key(host, port);
      var (conn, g1) := GetConnection(g, host, port, tls, e.connect);
      if conn.None? {
        assert o == Outcome(Ok(EmptyResponse), g1, retry + 1, None);
      } else if !e.sent {
        AttemptsAnswered(MarkClosed(g1, key), host, port, tls, envs, retry + 1);
        assert o == Attempts(MarkClosed(g1, key), host, port, tls, envs, retry + 1);
      } else {
        var read := ReadResponse(Open(e.incoming, false), e.status);
        if read == Err(NoStatusLine) {
          AttemptsAnswered(MarkClosed(g1, key), host, port, tls, envs, retry + 1);
          assert o == Attempts(MarkClosed(g1, key), host, port, tls, envs, retry + 1);
        } else {
          if read.Ok? {
            var f := read.value;
            assert o == Outcome(Ok(f.response), if MustClose(f) then MarkClosed(g1, key) else g1, retry + 1, Some(f));
          } else {
            assert o == Outcome(Err(read.error), g1, retry + 1, None);
          }
          AnsweredByRead(envs, retry, read, o);
        }
      }
    }
  }

  lemma AnsweredByRead(envs: seq<AttemptEnv>, retry: nat, read: Result<Framed, FrameError>, o: Outcome)
    requires |envs| == 2 && retry < 2 && NonEmptySegments(envs[retry].incoming)
    requires read == ReadResponse(Open(envs[retry].incoming, false), envs[retry].status)
    requires o.attempts == retry + 1
    requires o.framed.Some? ==> read == Ok(o.framed.value)
    requires o.response.Err? ==> read == Err(o.response.error)
    ensures AnsweredBy(o, envs)
  {
  }

  /** `perform_request`: at most two attempts; TLS exactly for `https`. */
  function PerformRequest(g: GlobalState, u: Url, envs: seq<AttemptEnv>): (o: Outcome)
    requires |envs| == 2 && WellFormedEnvs(envs)
    ensures 1 <= o.attempts <= 2
    ensures o.response != Err(NoStatusLine)
    ensures o.framed.Some? ==> o.response == Ok(o.framed.value.response)
    ensures o.framed.None? && o.response.Ok? ==> o.response.value == EmptyResponse
    ensures AnsweredBy(o, envs)
    ensures WellKeyed(g.pool) ==> WellKeyed(o.state.pool)
    ensures o.response.Ok? ==>
      (Reusable(o.state, Key(u.host, u.port)) <==> o.framed.Some? && !MustClose(o.framed.value))
  {
    AttemptsAnswered(g, u.host, u.port, u.protocol == "https", envs, 0);
    Attempts(g, u.host, u.port, u.protocol == "https", envs, 0)
  }

  /** Attempt `retry` ends the loop when it gets no connection, returning the empty
      response, or when it sends and its input has a status line, returning what that
      input reads as. */
  lemma AttemptEnds(g: GlobalState, host: string, port: int, tls: bool, envs: seq<AttemptEnv>, retry: nat)
    requires retry < 2 && |envs| == 2 && WellFormedEnvs(envs)
    requires retry > 0 ==> !Reusable(g, Key(host, port))
    ensures var o := Attempts(g, host, port, tls, envs, retry);
      GetConnection(g, host, port, tls, envs[retry].connect).0.None? ==>
        o.attempts == retry + 1 && o.response == Ok(EmptyResponse) && o.framed.None?
    ensures var o := Attempts(g, host, port, tls, envs, retry);
      var read := ReadResponse(Open(envs[retry].incoming, false), envs[retry].status);
      GetConnection(g, host, port, tls, envs[retry].connect).0.Some? && envs[retry].sent &&
      read != Err(NoStatusLine) ==>
        o.attempts == retry + 1 &&
        (read.Ok? ==> o.response == Ok(read.value.response) && o.framed == Some(read.value)) &&
        (read.Err? ==> o.response == Err(read.error))
  {
    assert NonEmptySegments(envs[retry].incoming);
  }

  /** No connection on the first attempt returns the empty response at once, with no
      second attempt. */
  lemma NoConnectionNoRetry(g: GlobalState, u: Url, envs: seq<AttemptEnv>)
    requires |envs| == 2 && WellFormedEnvs(envs)
    requires GetConnection(g, u.host, u.port, u.protocol == "https", envs[0].connect).0.None?
    ensures var o := PerformRequest(g, u, envs);
      o.attempts == 1 && o.response == Ok(EmptyResponse) && o.framed.None?
  {
    AttemptEnds(g, u.host, u.port, u.protocol == "https", envs, 0);
  }

  /** After a first attempt that connected but got no status line, the second attempt,
      on the state with that connection closed, decides: no connection gives the empty
      response; a sent request whose input has a status line gives what it reads as. */
  lemma SecondAttemptAnswers(g: GlobalState, u: Url, envs: seq<AttemptEnv>)
    requires |envs| == 2 && WellFormedEnvs(envs)
    requires var c := GetConnection(g, u.host, u.port, u.protocol == "https", envs[0].connect);
      c.0.Some? &&
      (!envs[0].sent || ReadResponse(Open(envs[0].incoming, false), envs[0].status) == Err(NoStatusLine))
    ensures var g1 := MarkClosed(GetConnection(g, u.host, u.port, u.protocol == "https", envs[0].connect).1,
                                 Key(u.host, u.port));
      var o := PerformRequest(g, u, envs);
      var read := ReadResponse(Open(envs[1].incoming, false), envs[1].status);
      var c := GetConnection(g1, u.host, u.port, u.protocol == "https", envs[1].connect);
      o.attempts == 2 &&
      (c.0.None? ==> o.response == Ok(EmptyResponse) && o.framed.None?) &&
      (c.0.Some? && envs[1].sent && read != Err(NoStatusLine) ==>
        (read.Ok? ==> o.response == Ok(read.value.response) && o.framed == Some(read.value)) &&
        (read.Err? ==> o.response == Err(read.error)))
  {
    var tls := u.protocol == "https";
    var g1 := MarkClosed(GetConnection(g, u.host, u.port, tls, envs[0].connect).1, Key(u.host, u.port));
    assert NonEmptySegments(envs[0].incoming);
    assert PerformRequest(g, u, envs) == Attempts(g1, u.host, u.port, tls, envs, 1);
    AttemptEnds(g1, u.host, u.port, tls, envs, 1);
  }

  /** A first attempt that connects but gets no status line, because the send failed or the
      peer ended the stream at once, is followed by a second one. */
  lemma SilentPeerRetried(g: GlobalState, u: Url, envs: seq<AttemptEnv>)
    requires |envs| == 2 && WellFormedEnvs(envs)
    requires GetConnection(g, u.host, u.port, u.protocol == "https", envs[0].connect).0.Some?
    requires !envs[0].sent || envs[0].incoming == []
    ensures PerformRequest(g, u, envs).attempts == 2
  {
    if envs[0].sent {
      var segments: seq<string> := envs[0].incoming;
      assert Concat(segments) == [];
      assert ReadResponse(Open(segments, false), envs[0].status) == Err(NoStatusLine);
    }
  }

  /** A first attempt that connects, sends, and gets a status line ends the request: its
      response, or the exception reading it threw, is what comes back. */
  lemma FirstAttemptAnswers(g: GlobalState, u: Url, envs: seq<AttemptEnv>)
    requires |envs| == 2 && WellFormedEnvs(envs)
    requires GetConnection(g, u.host, u.port, u.protocol == "https", envs[0].connect).0.Some?
    requires envs[0].sent
    requires ReadResponse(Open(envs[0].incoming, false), envs[0].status) != Err(NoStatusLine)
    ensures PerformRequest(g, u, envs).attempts == 1
    ensures var read := ReadResponse(Open(envs[0].incoming, false), envs[0].status);
      read.Ok? ==> PerformRequest(g, u, envs).response == Ok(read.value.response)
    ensures var read := ReadResponse(Open(envs[0].incoming, false), envs[0].status);
      read.Err? ==> PerformRequest(g, u, envs).response == Err(read.error)
  {
  }

  /** `max_redirects` when the caller gives none (http_client.h). */
  const DefaultMaxRedirects := 5

  /** A response `fetch_url` follows: a 3xx status with a `location` header. */
  predicate IsRedirect(res: HttpResponse) {
    300 <= res.status < 400 && "location" in res.headers
  }

  /** `loc.front()` is read for every followed `Location`, so none is empty. */
  ghost predicate LocationsNonEmpty(perform: (nat, Url) -> HttpResponse) {
    forall i: nat, u: Url :: IsRedirect(perform(i, u)) ==> |perform(i, u).headers["location"]| > 0
  }

  /** The result of `fetch_url`: the returned body, `final_url` afterwards, and the URLs
      the loop visited, in order. */
  datatype Fetched = Fetched(body: string, finalUrl: string, visited: seq<string>)

  /** How one round of the loop ends: on to the next URL, or returning a body. */
  datatype Round = Follow(next: string) | Stop(body: string)

  /** One round of `fetch_url` on `url` in round `i`: a URL that does not parse returns
      nothing; a redirect goes on to its resolved `Location`; a 200 returns its body; any
      other response returns nothing. */
  function RoundOf(i: nat, url: string, perform: (nat, Url) -> HttpResponse): (r: Round)
    requires LocationsNonEmpty(perform)
    ensures r.Follow? <==> ParseUrl(url).Some? && IsRedirect(perform(i, ParseUrl(url).value))
    ensures r.Stop? && r.body != [] ==>
      ParseUrl(url).Some? && perform(i, ParseUrl(url).value).status == 200 &&
      r.body == perform(i, ParseUrl(url).value).body
    ensures r.Follow? ==> Redirected(i, url, r.next, perform)
    ensures ParseUrl(url).Some? && !IsRedirect(perform(i, ParseUrl(url).value)) ==>
      r == Stop(if perform(i, ParseUrl(url).value).status == 200 then perform(i, ParseUrl(url).value).body else [])
    ensures ParseUrl(url).None? ==> r == Stop([])
  {
    match ParseUrl(url)
    case None => Stop([])
    case Some(u) =>
      var res := perform(i, u);
      if IsRedirect(res) then Follow(ResolveLocation(u.protocol, u.host, res.headers["location"]))
      else if res.status == 200 then Stop(res.body)
      else Stop([])
  }

  /** In round `i`, `url` parses and gets a redirect whose `Location`, made absolute on the
      same protocol and host, is `next`. */
  predicate Redirected(i: nat, url: string, next: string, perform: (nat, Url) -> HttpResponse) {
    ParseUrl(url).Some? &&
    var u := ParseUrl(url).value;
    IsRedirect(perform(i, u)) && |perform(i, u).headers["location"]| > 0 &&
    next == ResolveLocation(u.protocol, u.host, perform(i, u).headers["location"])
  }

  /** The loop of `fetch_url` from round `i` on, whatever a round does. */
  function FetchLoop(i: nat, current: string, finalUrl: string, maxRedirects: int,
                     round: (nat, string) -> Round): (r: Fetched)
    ensures |r.visited| <= if maxRedirects <= i then 0 else maxRedirects - i
    ensures maxRedirects <= i ==> r == Fetched([], finalUrl, [])
    ensures i < maxRedirects ==>
      |r.visited| > 0 && r.visited[0] == current && r.finalUrl == r.visited[|r.visited| - 1]
    decreases maxRedirects - i
  {
    if maxRedirects <= i then Fetched([], finalUrl, [])
    else match round(i, current)
      case Follow(next) =>
        var more := FetchLoop(i + 1, next, current, maxRedirects, round);
        Fetched(more.body, if more.visited == [] then current else more.finalUrl, [current] + more.visited)
      case Stop(body) => Fetched(body, current, [current])
  }

  /** Each URL of `visited` is where the round before it went, starting at round `i`. */
  predicate Chain(i: nat, visited: seq<string>, round: (nat, string) -> Round) {
    forall k :: 0 <= k < |visited| - 1 ==> round(i + k, visited[k]) == Follow(visited[k + 1])
  }

  /** The visited URLs form a chain. */
  lemma {:induction false} FetchChain(i: nat, current: string, finalUrl: string, maxRedirects: int,
                                      round: (nat, string) -> Round)
    ensures Chain(i, FetchLoop(i, current, finalUrl, maxRedirects, round).visited, round)
    decreases maxRedirects - i
  {
    if i < maxRedirects && round(i, current).Follow? {
      var next := round(i, current).next;
      var more := FetchLoop(i + 1, next, current, maxRedirects, round);
      FetchChain(i + 1, next, current, maxRedirects, round);
      ChainCons(i, current, more.visited, round);
    }
  }

  lemma ChainCons(i: nat, current: string, more: seq<string>, round: (nat, string) -> Round)
    requires Chain(i + 1, more, round)
    requires |more| > 0 ==> round(i, current) == Follow(more[0])
    ensures Chain(i, [current] + more, round)
  {
    var visited := [current] + more;
    forall k | 0 <= k < |visited| - 1
      ensures round(i + k, visited[k]) == Follow(visited[k + 1])
    {
      if k > 0 {
        assert visited[k] == more[k - 1] && visited[k + 1] == more[k];
        assert round(i + 1 + (k - 1), more[k - 1]) == Follow(more[k]);
      }
    }
  }

  /** The loop leaves the chain only at a round that stops, returning its body, or when the
      rounds run out on a redirect, returning nothing. */
  lemma {:induction false} FetchStops(i: nat, current: string, finalUrl: string, maxRedirects: int,
                                      round: (nat, string) -> Round)
    ensures var r := FetchLoop(i, current, finalUrl, maxRedirects, round);
      |r.visited| > 0 ==>
        var last := i + |r.visited| - 1;
        match round(last, r.finalUrl)
        case Stop(body) => r.body == body
        case Follow(_) => last == maxRedirects - 1 && r.body == []
    decreases maxRedirects - i
  {
    if i < maxRedirects && round(i, current).Follow? {
      FetchStops(i + 1, round(i, current).next, current, maxRedirects, round);
    }
  }

  /** `fetch_url`: `prior` is what `final_url` held before the call; `perform(i, u)` is the
      response `perform_request` gets for `u` in round `i`. */
  function FetchUrl(initial: string, prior: string, maxRedirects: int, perform: (nat, Url) -> HttpResponse)
    : (r: Fetched)
    requires LocationsNonEmpty(perform)
    ensures |r.visited| <= if maxRedirects <= 0 then 0 else maxRedirects
    ensures maxRedirects <= 0 ==> r == Fetched([], prior, [])
    ensures maxRedirects > 0 ==>
      |r.visited| > 0 && r.visited[0] == initial && r.finalUrl == r.visited[|r.visited| - 1]
  {
    FetchLoop(0, initial, prior, maxRedirects, (k: nat, url: string) => RoundOf(k, url, perform))
  }

  /** The last round decides the body, whatever a round does: a non-empty body is what it
      stopped with, and when it stopped, its body is returned. */
  lemma LastRound(current: string, finalUrl: string, maxRedirects: int, round: (nat, string) -> Round)
    ensures var r := FetchLoop(0, current, finalUrl, maxRedirects, round);
      r.body != [] ==> |r.visited| > 0 && round(|r.visited| - 1, r.finalUrl) == Stop(r.body)
    ensures var r := FetchLoop(0, current, finalUrl, maxRedirects, round);
      |r.visited| > 0 && round(|r.visited| - 1, r.finalUrl).Stop? ==>
        r.body == round(|r.visited| - 1, r.finalUrl).body
  {
    FetchStops(0, current, finalUrl, maxRedirects, round);
  }

  /** `LastRound` for the rounds of `fetch_url`: a non-empty body is what the last round
      stopped with. */
  lemma FinalRoundStops(initial: string, prior: string, maxRedirects: int, perform: (nat, Url) -> HttpResponse)
    requires LocationsNonEmpty(perform)
    ensures var r := FetchUrl(initial, prior, maxRedirects, perform);
      r.body != [] ==> |r.visited| > 0 && RoundOf(|r.visited| - 1, r.finalUrl, perform) == Stop(r.body)
  {
    var round := (k: nat, url: string) => RoundOf(k, url, perform);
    var r := FetchUrl(initial, prior, maxRedirects, perform);
    assert r == FetchLoop(0, initial, prior, maxRedirects, round);
    LastRound(initial, prior, maxRedirects, round);
    if r.body != [] {
      var rd := round(|r.visited| - 1, r.finalUrl);
      assert rd == Stop(r.body);
      assert rd == RoundOf(|r.visited| - 1, r.finalUrl, perform);
    }
  }

  /** `LastRound` for the rounds of `fetch_url`: when the last round stopped, its body is
      returned. */
  lemma FinalRoundBody(initial: string, prior: string, maxRedirects: int, perform: (nat, Url) -> HttpResponse)
    requires LocationsNonEmpty(perform)
    ensures var r := FetchUrl(initial, prior, maxRedirects, perform);
      |r.visited| > 0 && RoundOf(|r.visited| - 1, r.finalUrl, perform).Stop? ==>
        r.body == RoundOf(|r.visited| - 1, r.finalUrl, perform).body
  {
    var round := (k: nat, url: string) => RoundOf(k, url, perform);
    var r := FetchUrl(initial, prior, maxRedirects, perform);
    assert r == FetchLoop(0, initial, prior, maxRedirects, round);
    LastRound(initial, prior, maxRedirects, round);
    if |r.visited| > 0 {
      assert round(|r.visited| - 1, r.finalUrl) == RoundOf(|r.visited| - 1, r.finalUrl, perform);
    }
  }

  /** A non-empty body comes from a 200 response to the final URL in the last round. */
  lemma BodyFromOk(initial: string, prior: string, maxRedirects: int, perform: (nat, Url) -> HttpResponse)
    requires LocationsNonEmpty(perform)
    ensures var r := FetchUrl(initial, prior, maxRedirects, perform);
      r.body != [] ==> (|r.visited| > 0 && ParseUrl(r.finalUrl).Some? &&
        var res := perform(|r.visited| - 1, ParseUrl(r.finalUrl).value);
        res.status == 200 && !IsRedirect(res) && r.body == res.body)
  {
    var r := FetchUrl(initial, prior, maxRedirects, perform);
    FinalRoundStops(initial, prior, maxRedirects, perform);
    if r.body != [] {
      StopWithBody(|r.visited| - 1, r.finalUrl, perform, r.body);
    }
  }

  /** A round that stops with a non-empty body got a 200 that is not a redirect. */
  lemma StopWithBody(i: nat, url: string, perform: (nat, Url) -> HttpResponse, body: string)
    requires LocationsNonEmpty(perform) && body != [] && RoundOf(i, url, perform) == Stop(body)
    ensures ParseUrl(url).Some? &&
      var res := perform(i, ParseUrl(url).value);
      res.status == 200 && !IsRedirect(res) && body == res.body
  {
  }

  /** A 200 that is not a redirect, for the final URL in the last round, is what `fetch_url`
      returns. */
  lemma OkBodyReturned(initial: string, prior: string, maxRedirects: int, perform: (nat, Url) -> HttpResponse)
    requires LocationsNonEmpty(perform)
    ensures var r := FetchUrl(initial, prior, maxRedirects, perform);
      |r.visited| > 0 && ParseUrl(r.finalUrl).Some? ==>
        var res := perform(|r.visited| - 1, ParseUrl(r.finalUrl).value);
        res.status == 200 && !IsRedirect(res) ==> r.body == res.body
  {
    var r := FetchUrl(initial, prior, maxRedirects, perform);
    FinalRoundBody(initial, prior, maxRedirects, perform);
    if |r.visited| > 0 && ParseUrl(r.finalUrl).Some? {
      var last := |r.visited| - 1;
      var res := perform(last, ParseUrl(r.finalUrl).value);
      if res.status == 200 && !IsRedirect(res) {
        assert RoundOf(last, r.finalUrl, perform) == Stop(res.body);
      }
    }
  }

  /** Every URL visited after the first is the resolved `Location` of the redirect the URL
      before it got. */
  lemma RedirectChain(initial: string, prior: string, maxRedirects: int, perform: (nat, Url) -> HttpResponse)
    requires LocationsNonEmpty(perform)
    ensures var v := FetchUrl(initial, prior, maxRedirects, perform).visited;
      forall k :: 0 <= k < |v| - 1 ==> Redirected(k, v[k], v[k + 1], perform)
  {
    var round := (k: nat, url: string) => RoundOf(k, url, perform);
    var v := FetchUrl(initial, prior, maxRedirects, perform).visited;
    FetchChain(0, initial, prior, maxRedirects, round);
    forall k | 0 <= k < |v| - 1 ensures Redirected(k, v[k], v[k + 1], perform) {
      assert round(0 + k, v[k]) == Follow(v[k + 1]);
    }
  }

  /** When every visited URL redirects, `fetch_url` uses up all `max_redirects` rounds and
      returns nothing. */
  lemma RedirectsExhaust(initial: string, prior: string, maxRedirects: int, perform: (nat, Url) -> HttpResponse)
    requires LocationsNonEmpty(perform)
    requires var v := FetchUrl(initial, prior, maxRedirects, perform).visited;
      forall k :: 0 <= k < |v| ==> RoundOf(k, v[k], perform).Follow?
    ensures var r := FetchUrl(initial, prior, maxRedirects, perform);
      r.body == [] && |r.visited| == if maxRedirects <= 0 then 0 else maxRedirects
  {
    var round := (k: nat, url: string) => RoundOf(k, url, perform);
    var v := FetchLoop(0, initial, prior, maxRedirects, round).visited;
    forall k | 0 <= k < |v| ensures round(k, v[k]).Follow? {
      assert RoundOf(k, v[k], perform).Follow?;
    }
    LoopExhausts(initial, prior, maxRedirects, round);
  }

  /** The loop, whatever a round does: when every visited URL's round follows, the rounds
      run out and the body is empty. */
  lemma LoopExhausts(current: string, finalUrl: string, maxRedirects: int, round: (nat, string) -> Round)
    requires var v := FetchLoop(0, current, finalUrl, maxRedirects, round).visited;
      forall k :: 0 <= k < |v| ==> round(k, v[k]).Follow?
    ensures var r := FetchLoop(0, current, finalUrl, maxRedirects, round);
      r.body == [] && |r.visited| == if maxRedirects <= 0 then 0 else maxRedirects
  {
    var r := FetchLoop(0, current, finalUrl, maxRedirects, round);
    FetchStops(0, current, finalUrl, maxRedirects, round);
    if 0 < maxRedirects {
      var last := |r.visited| - 1;
      assert round(last, r.visited[last]).Follow?;
    }
  }

  /** A relative redirect to the same host followed by a 200: two rounds, the second on the
      root-based URL, returning the second body. */
  lemma RelativeRedirectThenOk(u: Url, loc: string, body: string, prior: string, maxRedirects: int,
                               perform: (nat, Url) -> HttpResponse)
    requires WellFormed(u) && |loc| > 0 && !OccursAt(loc, "http", 0) && maxRedirects >= 2
    requires LocationsNonEmpty(perform)
    requires IsRedirect(perform(0, u)) && perform(0, u).headers["location"] == loc
    requires var next := Url(u.protocol, u.host, RootPath(loc), u.port);
      perform(1, next).status == 200 && !IsRedirect(perform(1, next)) && perform(1, next).body == body
    ensures var next := ResolveLocation(u.protocol, u.host, loc);
      FetchUrl(UrlText(u), prior, maxRedirects, perform) == Fetched(body, next, [UrlText(u), next])
  {
    var round := (k: nat, url: string) => RoundOf(k, url, perform);
    var next := ResolveLocation(u.protocol, u.host, loc);
    ParseUrlText(u);
    ResolveRelative(u.protocol, u.host, loc);
    assert RoundOf(0, UrlText(u), perform) == Follow(next);
    assert RoundOf(1, next, perform) == Stop(body);
    TwoRounds(UrlText(u), next, body, prior, maxRedirects, round);
  }

  /** What `download_file` leaves behind: whether it reported success, the bytes
      `read_to_file` wrote, and the global state. */
  datatype Download = Download(ok: bool, written: string, state: GlobalState)

  /** A loop whose first round follows to `next` and whose second stops there. */
  lemma TwoRounds(first: string, next: string, body: string, prior: string, maxRedirects: int,
                  round: (nat, string) -> Round)
    requires maxRedirects >= 2 && round(0, first) == Follow(next) && round(1, next) == Stop(body)
    ensures FetchLoop(0, first, prior, maxRedirects, round) == Fetched(body, next, [first, next])
  {
    assert FetchLoop(1, next, first, maxRedirects, round) == Fetched(body, next, [next]);
  }

  /** `w` ends `d`. */
  predicate IsSuffix(w: string, d: string) {
    |w| <= |d| && d[|d| - |w|..] == w
  }

  lemma SuffixOfConcat(p: string, w: string)
    ensures IsSuffix(w, p + w)
  {
    assert (p + w)[|p|..] == w;
  }

  /** The reads of `download_file` once the request is sent: `None` without a status line;
      otherwise the header lines are skipped and `read_to_file` writes everything after the
      blank line, the bytes still in the buffer first. */
  function ReceiveFile(incoming: seq<string>): (r: Option<string>)
    requires NonEmptySegments(incoming)
    ensures r.None? <==> Concat(incoming) == []
    ensures r.Some? ==> IsSuffix(r.value, Concat(incoming))
    ensures r.Some? ==>
      var (statusLine, s1) := ReadLine(Open(incoming, false));
      var block := ReadHeaderLines(s1);
      Concat(incoming) == statusLine + Concat(block.lines) + block.blank + r.value
  {
    var s := Open(incoming, false);
    var (statusLine, s1) := ReadLine(s);
    LineSplits(Deliverable(s), statusLine, Deliverable(s1), s1.error);
    if statusLine == [] then None
    else
      var block := ReadHeaderLines(s1);
      var body := ReadToClose(block.rest).0;
      BodyIsSuffix(Deliverable(s), statusLine, Deliverable(s1), Concat(block.lines), block.blank, body);
      Some(body)
  }

  lemma BodyIsSuffix(d: string, status: string, d1: string, lines: string, blank: string, body: string)
    requires d == status + d1 && d1 == lines + blank + body
    ensures IsSuffix(body, d) && d == status + lines + blank + body
  {
    assert d == (status + lines + blank) + body;
    SuffixOfConcat(status + lines + blank, body);
  }

  /** `download_file`: https only, over a TLS connection from the pool. Without a status
      line it fails; otherwise the header lines are skipped, everything after the blank
      line goes to the file, and the connection is closed. The result of `SSL_write` is
      not looked at. */
  function DownloadFile(g: GlobalState, url: string, env: AttemptEnv): (r: Download)
    requires NonEmptySegments(env.incoming)
    ensures !DownloadAllowed(url) ==> r == Download(false, [], g)
    ensures r.ok <==> (DownloadAllowed(url) &&
      GetConnection(g, ParseUrl(url).value.host, 443, true, env.connect).0.Some? && Concat(env.incoming) != [])
    ensures !r.ok ==> r.written == []
    ensures IsSuffix(r.written, Concat(env.incoming))
    ensures r.ok ==> ReceiveFile(env.incoming) == Some(r.written)
    ensures DownloadAllowed(url) ==> !Reusable(r.state, Key(ParseUrl(url).value.host, 443))
    ensures WellKeyed(g.pool) ==> WellKeyed(r.state.pool)
  {
    if !DownloadAllowed(url) then Download(false, [], g)
    else
      var u := ParseUrl(url).value;
      var key := Key(u.host, u.port);
      var (conn, g1) := GetConnection(g, u.host, u.port, true, env.connect);
      if conn.None? then Download(false, [], g1)
      else
        match ReceiveFile(env.incoming)
        case None => Download(false, [], MarkClosed(g1, key))
        case Some(written) => Download(true, written, MarkClosed(g1, key))
  }
}

=== FILE: framing.dfy ===
/** Header parsing and body delimiting of one response, as `perform_request`
    (http_client.cpp) does it on a `BufferedStream` once the request has been sent. */
module Framing {
  import opened Wrappers
  import opened Text
  import opened Numbers
  import opened Buffered

  /** `HttpResponse` of http_client.h: status code, lower-cased header names, body. */
  datatype HttpResponse = HttpResponse(status: int, headers: map<string, string>, body: string)

  /** What a response carries when no attempt produced one. */
  const EmptyResponse := HttpResponse(0, map[], [])

  /** How reading a response can end without one. `NoStatusLine` sends the caller to its
      retry; the others are the exceptions `substr`, `std::stol` and `reserve` throw, which
      nothing in the client catches. */
  datatype FrameError = NoStatusLine | HeaderValueOutOfRange | BadContentLength | ReserveLengthError

  /** The lines that end the header block. */
  predicate IsBlankLine(line: string) {
    line == "\r\n" || line == "\n" || line == ""
  }

  /** One header line, split at its first colon. */
  datatype HeaderLine = NoColon | Field(name: string, value: string) | ValueOutOfRange

  /** Name: the text before the first colon, lower-cased. Value: the text from two
      characters past the colon, with trailing CR/LF removed. When the colon is the last
      character, `substr(colon + 2)` is out of range. */
  function SplitHeaderLine(line: string): (r: HeaderLine)
    ensures r.NoColon? <==> Lacks(line, ':')
    ensures r.ValueOutOfRange? <==> |line| > 0 && line[|line| - 1] == ':' && Lacks(line[..|line| - 1], ':')
    ensures r.Field? ==> exists c :: 0 <= c && c + 2 <= |line| && line[c] == ':' && Lacks(line[..c], ':')
                                     && r.name == ToLower(line[..c]) && r.value == StripLineEnd(line[c + 2..])
    ensures r.Field? ==> Lacks(r.name, ':') && (|r.value| == 0 || !IsLineEnd(r.value[|r.value| - 1]))
  {
    match FindChar(line, ':', 0)
    case None => NoColon
    case Some(c) =>
      FirstColon(line, c);
      if c + 2 > |line| then ValueOutOfRange
      else
        ToLowerKeepsColons(line[..c]);
        Field(ToLower(line[..c]), StripLineEnd(line[c + 2..]))
  }

  /** The colon `FindChar` reports is the first one; it ends the line exactly when the line
      is colon-free before its last character and ends in a colon. */
  lemma FirstColon(line: string, c: nat)
    requires FindChar(line, ':', 0) == Some(c)
    ensures c < |line| && line[c] == ':' && Lacks(line[..c], ':') && !Lacks(line, ':')
    ensures (c + 2 > |line|) <==> (line[|line| - 1] == ':' && Lacks(line[..|line| - 1], ':'))
  {
  }

  /** The header map plus the three framing variables of `perform_request`. */
  datatype Headers = Headers(fields: map<string, string>, contentLength: int, chunked: bool, close: bool)

  /** Before the first header line: `content_len = -1`, both flags false. */
  const NoHeaders := Headers(map[], -1, false, false)

  /** The effect of one header line; `chunked` and `close` are never cleared again. */
  function ApplyHeader(h: Headers, line: string): (r: Result<Headers, FrameError>)
    ensures r.Err? <==> LineFails(line)
    ensures r.Err? ==> r.error != NoStatusLine
  {
    match SplitHeaderLine(line)
    case NoColon => Ok(h)
    case ValueOutOfRange => Err(HeaderValueOutOfRange)
    case Field(name, value) =>
      var h1 := h.(fields := h.fields[name := value]);
      if name == "content-length" then
        match ParseLong(value, 10)
        case None => Err(BadContentLength)
        case Some(n) => Ok(h1.(contentLength := n))
      else if name == "transfer-encoding" && Contains(value, "chunked") then Ok(h1.(chunked := true))
      else if name == "connection" && Contains(value, "close") then Ok(h1.(close := true))
      else Ok(h1)
  }

  /** A line on which reading the header block throws. */
  predicate LineFails(line: string) {
    match SplitHeaderLine(line)
    case NoColon => false
    case ValueOutOfRange => true
    case Field(name, value) => name == "content-length" && ParseLong(value, 10).None?
  }

  /** The line is a `name` header whose value contains `word`. */
  predicate FieldHas(line: string, name: string, word: string) {
    match SplitHeaderLine(line)
    case Field(n, v) => n == name && Contains(v, word)
    case _ => false
  }

  /** Reference definition of the stored value: the value of the LAST line naming `name`. */
  function LastValue(lines: seq<string>, name: string): Option<string>
  {
    if |lines| == 0 then None
    else match SplitHeaderLine(lines[|lines| - 1])
      case Field(n, v) =>
        if n == name then Some(v) else LastValue(lines[..|lines| - 1], name)
      case _ => LastValue(lines[..|lines| - 1], name)
  }

  /** The header loop of `perform_request` over the lines it read, in order; it throws
      exactly when some line does. */
  function ApplyHeaders(h: Headers, lines: seq<string>): (r: Result<Headers, FrameError>)
    ensures r.Err? <==> AnyLine(lines, LineFails)
    ensures r.Err? ==> r.error != NoStatusLine
  {
    if |lines| == 0 then Ok(h)
    else
      var front := lines[..|lines| - 1];
      AnyLineLast(lines, LineFails);
      match ApplyHeaders(h, front)
      case Err(e) => Err(e)
      case Ok(h1) => ApplyHeader(h1, lines[|lines| - 1])
  }

  /** Peels the last line off a header loop that did not throw. */
  lemma ApplyHeadersLast(h: Headers, lines: seq<string>)
    requires |lines| > 0 && ApplyHeaders(h, lines).Ok?
    ensures ApplyHeaders(h, lines[..|lines| - 1]).Ok?
    ensures ApplyHeaders(h, lines) == ApplyHeader(ApplyHeaders(h, lines[..|lines| - 1]).value, lines[|lines| - 1])
  {
  }

  /** One line stores at most its own name and value. */
  lemma ApplyHeaderFields(h: Headers, line: string)
    requires ApplyHeader(h, line).Ok?
    ensures ApplyHeader(h, line).value.fields ==
      (match SplitHeaderLine(line) case Field(n, v) => h.fields[n := v] case _ => h.fields)
  {
    match SplitHeaderLine(line)
    case NoColon =>
    case ValueOutOfRange =>
    case Field(n, v) =>
      var h1 := h.(fields := h.fields[n := v]);
      assert ApplyHeader(h, line).value.fields == h1.fields by {
        if n == "content-length" {
          assert ApplyHeader(h, line).value == h1.(contentLength := ParseLong(v, 10).value);
        } else if n == "transfer-encoding" {
          assert ApplyHeader(h, line).value == if Contains(v, "chunked") then h1.(chunked := true) else h1;
        } else if n == "connection" {
          assert ApplyHeader(h, line).value == if Contains(v, "close") then h1.(close := true) else h1;
        } else {
          assert ApplyHeader(h, line).value == h1;
        }
      }
  }

  /** A later duplicate wins: each stored value is the one of the last line naming that
      header, and only named headers are added. */
  lemma {:induction false} HeadersLastWins(h: Headers, lines: seq<string>)
    requires ApplyHeaders(h, lines).Ok?
    ensures var f := ApplyHeaders(h, lines).value.fields;
      forall name :: name in f <==> name in h.fields || LastValue(lines, name).Some?
    ensures var f := ApplyHeaders(h, lines).value.fields;
      forall name :: name in f ==>
        f[name] == (match LastValue(lines, name) case Some(v) => v case None => h.fields[name])
  {
    if |lines| > 0 {
      var front := lines[..|lines| - 1];
      var last := lines[|lines| - 1];
      ApplyHeadersLast(h, lines);
      HeadersLastWins(h, front);
      var h1 := ApplyHeaders(h, front).value;
      ApplyHeaderFields(h1, last);
      LastWinsStep(h.fields, h1.fields, ApplyHeaders(h, lines).value.fields, front, lines);
    }
  }

  /** One more line keeps the last-wins relation between the stored fields and the lines. */
  lemma LastWinsStep(base: map<string, string>, f1: map<string, string>, f: map<string, string>,
                     front: seq<string>, lines: seq<string>)
    requires |lines| > 0 && front == lines[..|lines| - 1]
    requires !SplitHeaderLine(lines[|lines| - 1]).ValueOutOfRange?
    requires f == (match SplitHeaderLine(lines[|lines| - 1]) case Field(n, v) => f1[n := v] case _ => f1)
    requires forall name :: name in f1 <==> name in base || LastValue(front, name).Some?
    requires forall name :: name in f1 ==>
      f1[name] == (match LastValue(front, name) case Some(v) => v case None => base[name])
    ensures forall name :: name in f <==> name in base || LastValue(lines, name).Some?
    ensures forall name :: name in f ==>
      f[name] == (match LastValue(lines, name) case Some(v) => v case None => base[name])
  {
    forall name ensures LastValue(lines, name) ==
      match SplitHeaderLine(lines[|lines| - 1])
      case Field(n, v) => if n == name then Some(v) else LastValue(front, name)
      case _ => LastValue(front, name)
    {
    }
  }

  /** One line sets the framing flags only by matching them. */
  lemma ApplyHeaderFlags(h: Headers, line: string)
    requires ApplyHeader(h, line).Ok?
    ensures ApplyHeader(h, line).value.chunked == (h.chunked || FieldHas(line, "transfer-encoding", "chunked"))
    ensures ApplyHeader(h, line).value.close == (h.close || FieldHas(line, "connection", "close"))
  {
    match SplitHeaderLine(line)
    case NoColon =>
    case ValueOutOfRange =>
    case Field(n, v) =>
      NamesDiffer();
      var h1 := h.(fields := h.fields[n := v]);
      if n == "content-length" {
        assert ApplyHeader(h, line).value.chunked == h.chunked;
      } else if n == "transfer-encoding" {
        assert ApplyHeader(h, line).value == if Contains(v, "chunked") then h1.(chunked := true) else h1;
      } else if n == "connection" {
        assert ApplyHeader(h, line).value == if Contains(v, "close") then h1.(close := true) else h1;
      } else {
        assert ApplyHeader(h, line).value == h1;
      }
  }

  /** The three framing header names are distinct (they differ in length). */
  lemma NamesDiffer()
    ensures "content-length" != "transfer-encoding" && "content-length" != "connection"
    ensures "transfer-encoding" != "connection"
  {
    assert |"content-length"| == 14 && |"transfer-encoding"| == 17 && |"connection"| == 10;
  }

  /** `chunked` and `connection_close` are set by ANY matching line, not only by the last. */
  lemma {:induction false} HeaderFlags(h: Headers, lines: seq<string>)
    requires ApplyHeaders(h, lines).Ok?
    ensures ApplyHeaders(h, lines).value.chunked <==>
      h.chunked || AnyFieldHas(lines, "transfer-encoding", "chunked")
    ensures ApplyHeaders(h, lines).value.close <==>
      h.close || AnyFieldHas(lines, "connection", "close")
  {
    if |lines| > 0 {
      var front := lines[..|lines| - 1];
      var last := lines[|lines| - 1];
      ApplyHeadersLast(h, lines);
      HeaderFlags(h, front);
      ApplyHeaderFlags(ApplyHeaders(h, front).value, last);
      AnyFieldHasLast(lines, "transfer-encoding", "chunked");
      AnyFieldHasLast(lines, "connection", "close");
    }
  }

  /** Some line is a `name` header whose value contains `word`. */
  predicate AnyFieldHas(lines: seq<string>, name: string, word: string) {
    AnyLine(lines, line => FieldHas(line, name, word))
  }

  /** Some line satisfies `f`. */
  predicate AnyLine(lines: seq<string>, f: string -> bool) {
    exists i :: 0 <= i < |lines| && f(lines[i])
  }

  lemma AnyFieldHasLast(lines: seq<string>, name: string, word: string)
    requires |lines| > 0
    ensures AnyFieldHas(lines, name, word) <==>
      AnyFieldHas(lines[..|lines| - 1], name, word) || FieldHas(lines[|lines| - 1], name, word)
  {
    AnyLineLast(lines, line => FieldHas(line, name, word));
  }

  lemma AnyLineLast(lines: seq<string>, f: string -> bool)
    requires |lines| > 0
    ensures AnyLine(lines, f) <==> AnyLine(lines[..|lines| - 1], f) || f(lines[|lines| - 1])
  {
    var front := lines[..|lines| - 1];
    if AnyLine(lines, f) && !f(lines[|lines| - 1]) {
      var i :| 0 <= i < |lines| && f(lines[i]);
      assert front[i] == lines[i];
    }
    if AnyLine(front, f) {
      var i :| 0 <= i < |front| && f(front[i]);
      assert front[i] == lines[i];
    }
  }

  /** `content_len` is the number the LAST content-length line carries, or unchanged. */
  lemma {:induction false} ContentLengthIsLast(h: Headers, lines: seq<string>)
    requires ApplyHeaders(h, lines).Ok?
    ensures Some(ApplyHeaders(h, lines).value.contentLength) ==
      (match LastValue(lines, "content-length")
       case Some(v) => ParseLong(v, 10)
       case None => Some(h.contentLength))
  {
    if |lines| > 0 {
      var front := lines[..|lines| - 1];
      ApplyHeadersLast(h, lines);
      ContentLengthIsLast(h, front);
      ContentLengthStep(ApplyHeaders(h, front).value, lines[|lines| - 1]);
    }
  }

  /** One line sets `content_len` exactly when it is a content-length line. */
  lemma ContentLengthStep(h: Headers, line: string)
    requires ApplyHeader(h, line).Ok?
    ensures Some(ApplyHeader(h, line).value.contentLength) ==
      (match SplitHeaderLine(line)
       case Field(n, v) => if n == "content-length" then ParseLong(v, 10) else Some(h.contentLength)
       case _ => Some(h.contentLength))
  {
  }

  /** The reads of the header loop: the lines before the first blank one, that blank line,
      and the stream after it. */
  datatype HeaderBlock = HeaderBlock(lines: seq<string>, blank: string, rest: Stream)

  /** `lines`, `blank` and what follows are what successive `read_line` calls take: every
      line but a last one cut short by the end of the stream ends at its only newline, none
      is blank, and the blank line is empty only at the end of the stream. */
  predicate HeaderReads(lines: seq<string>, blank: string, rest: string)
    decreases |lines|
  {
    if lines == [] then IsBlankLine(blank) && (blank == [] ==> rest == [])
    else
      && !IsBlankLine(lines[0])
      && (Terminated(lines[0]) || (|lines| == 1 && blank == [] && Lacks(lines[0], '\n')))
      && HeaderReads(lines[1..], blank, rest)
  }

  /** Every byte taken lies in a returned line or in the blank line that ends them, and
      the lines are the successive reads up to the first blank one. */
  function ReadHeaderLines(s: Stream): (r: HeaderBlock)
    requires Valid(s)
    ensures Valid(r.rest) && IsBlankLine(r.blank)
    ensures Deliverable(s) == Concat(r.lines) + r.blank + Deliverable(r.rest)
    ensures HeaderReads(r.lines, r.blank, Deliverable(r.rest))
    decreases |Deliverable(s)|
  {
    var got := ReadLine(s);
    var line := got.0;
    var s1 := got.1;
    LineSplits(Deliverable(s), line, Deliverable(s1), s1.error);
    if IsBlankLine(line) then
      HeaderBlock([], line, s1)
    else
      var more := ReadHeaderLines(s1);
      HeaderBlockCons(Deliverable(s), line, Deliverable(s1), more.lines, more.blank, Deliverable(more.rest));
      HeaderReadsCons(line, s1.error, more.lines, more.blank, Deliverable(more.rest), Deliverable(s1));
      HeaderBlock([line] + more.lines, more.blank, more.rest)
  }

  /** A non-blank line read before a block of reads extends it; a line cut short by the end
      of the stream can only be followed by the empty blank line. */
  lemma HeaderReadsCons(line: string, failed: bool, lines: seq<string>, blank: string, rest: string, d1: string)
    requires !IsBlankLine(line) && HeaderReads(lines, blank, rest)
    requires if failed then Lacks(line, '\n') && d1 == [] else Terminated(line)
    requires d1 == Concat(lines) + blank + rest
    ensures HeaderReads([line] + lines, blank, rest)
  {
    assert ([line] + lines)[1..] == lines;
  }

  lemma HeaderBlockCons(d: string, line: string, d1: string, lines: seq<string>, blank: string, dr: string)
    requires d == line + d1 && d1 == Concat(lines) + blank + dr
    ensures d == Concat([line] + lines) + blank + dr
  {
    ConcatCons(line, lines);
  }

  /** The loop stops at the FIRST blank line: none of the returned lines is blank, and each
      is a single `read_line` result, ending at its only newline unless the stream ended
      inside it, in which case it is the last one and the blank line is empty. */
  lemma HeaderLinesNotBlank(s: Stream)
    requires Valid(s)
    ensures var r := ReadHeaderLines(s);
      forall i :: 0 <= i < |r.lines| ==> !IsBlankLine(r.lines[i])
    ensures var r := ReadHeaderLines(s);
      forall i :: 0 <= i < |r.lines| ==>
        Terminated(r.lines[i]) || (i == |r.lines| - 1 && r.blank == [] && Lacks(r.lines[i], '\n'))
  {
    var r := ReadHeaderLines(s);
    HeaderReadsLines(r.lines, r.blank, Deliverable(r.rest));
  }

  /** `HeaderReads` line by line. */
  lemma {:induction false} HeaderReadsLines(lines: seq<string>, blank: string, rest: string)
    requires HeaderReads(lines, blank, rest)
    ensures IsBlankLine(blank) && (blank == [] ==> rest == [])
    ensures forall i :: 0 <= i < |lines| ==>
      !IsBlankLine(lines[i]) && (Terminated(lines[i]) || (i == |lines| - 1 && blank == [] && Lacks(lines[i], '\n')))
    decreases |lines|
  {
    if lines != [] {
      var tail := lines[1..];
      HeaderReadsLines(tail, blank, rest);
      forall i | 1 <= i < |lines|
        ensures !IsBlankLine(lines[i]) && (Terminated(lines[i]) || (i == |lines| - 1 && blank == [] && Lacks(lines[i], '\n')))
      {
        assert lines[i] == tail[i - 1];
      }
    }
  }

  /** A line with no newline, read from bytes with no newline, is all of them and ends the
      stream. */
  lemma LineOfUnterminated(d: string, line: string, rest: string, failed: bool)
    requires IsLineOf(d, line, rest, failed) && Lacks(d, '\n')
    ensures line == d && rest == [] && failed
  {
    NewlineIn(line, rest);
  }

  lemma NewlineIn(line: string, rest: string)
    ensures Terminated(line) ==> !Lacks(line + rest, '\n')
  {
    if Terminated(line) {
      assert (line + rest)[|line| - 1] == '\n';
    }
  }

  /** Only one block of reads fits the bytes: whenever the deliverable bytes are some lines
      that are successive `read_line` results, none blank, then a blank line and the rest,
      the header loop returns exactly those lines and that blank line. With `\r\n`, `\n`
      or the end of the stream as the blank line. */
  lemma {:induction false} HeaderBlockUnique(s: Stream, lines: seq<string>, blank: string, rest: string)
    requires Valid(s) && HeaderReads(lines, blank, rest)
    requires Deliverable(s) == Concat(lines) + blank + rest
    ensures ReadHeaderLines(s).lines == lines && ReadHeaderLines(s).blank == blank
    ensures Deliverable(ReadHeaderLines(s).rest) == rest
    decreases |lines|
  {
    if lines == [] {
      BlankLineRead(s, blank, rest);
    } else {
      FirstHeaderRead(s, lines, blank, rest);
      HeaderBlockUnique(ReadLine(s).1, lines[1..], blank, rest);
      UniqueStep(s, lines, blank, rest);
    }
  }

  /** The inductive step of `HeaderBlockUnique`: the first header line, then the rest. */
  lemma UniqueStep(s: Stream, lines: seq<string>, blank: string, rest: string)
    requires Valid(s) && lines != [] && HeaderReads(lines, blank, rest)
    requires Deliverable(s) == Concat(lines) + blank + rest
    requires var more := ReadHeaderLines(ReadLine(s).1);
      more.lines == lines[1..] && more.blank == blank && Deliverable(more.rest) == rest
    ensures ReadHeaderLines(s).lines == lines && ReadHeaderLines(s).blank == blank
    ensures Deliverable(ReadHeaderLines(s).rest) == rest
  {
    FirstHeaderRead(s, lines, blank, rest);
    HeaderLinesStep(s);
    assert [lines[0]] + lines[1..] == lines;
  }

  /** A non-blank first read is the first header line, and the loop goes on after it. */
  lemma HeaderLinesStep(s: Stream)
    requires Valid(s) && !IsBlankLine(ReadLine(s).0)
    ensures var more := ReadHeaderLines(ReadLine(s).1);
      ReadHeaderLines(s) == HeaderBlock([ReadLine(s).0] + more.lines, more.blank, more.rest)
  {
  }

  /** With no header line left, the next read is the blank line. */
  lemma BlankLineRead(s: Stream, blank: string, rest: string)
    requires Valid(s) && IsBlankLine(blank) && (blank == [] ==> rest == [])
    requires Deliverable(s) == blank + rest
    ensures ReadLine(s).0 == blank && Deliverable(ReadLine(s).1) == rest
  {
    var got := ReadLine(s);
    if blank == [] {
      LineSplits(Deliverable(s), got.0, Deliverable(got.1), got.1.error);
    } else {
      assert Terminated(blank) by {
        assert blank == "\r\n" || blank == "\n";
      }
      LineOfTerminated(Deliverable(s), got.0, Deliverable(got.1), got.1.error, blank, rest);
    }
  }

  /** The next read is the first of the header lines. */
  lemma FirstHeaderRead(s: Stream, lines: seq<string>, blank: string, rest: string)
    requires Valid(s) && lines != [] && HeaderReads(lines, blank, rest)
    requires Deliverable(s) == Concat(lines) + blank + rest
    ensures ReadLine(s).0 == lines[0] && Deliverable(ReadLine(s).1) == Concat(lines[1..]) + blank + rest
  {
    var got := ReadLine(s);
    var d := Deliverable(s);
    var tail := Concat(lines[1..]) + blank + rest;
    AppendAssociates(lines[0], Concat(lines[1..]), blank, rest);
    assert d == lines[0] + tail;
    if Terminated(lines[0]) {
      LineOfTerminated(d, got.0, Deliverable(got.1), got.1.error, lines[0], tail);
    } else {
      assert lines[1..] == [] && blank == [] && rest == [];
      LineOfUnterminated(d, got.0, Deliverable(got.1), got.1.error);
    }
  }

  lemma AppendAssociates(a: string, b: string, c: string, e: string)
    ensures a + b + c + e == a + (b + c + e)
  {
  }

  /** Reading never hands out bytes that were not deliverable. */
  lemma CopyExactShrinks(s: Stream, out: string, n: int)
    requires Valid(s)
    ensures |Deliverable(CopyExact(s, out, n).1)| <= |Deliverable(s)|
  {
  }

  lemma ReadLineShrinks(s: Stream)
    requires Valid(s)
    ensures |Deliverable(ReadLine(s).1)| <= |Deliverable(s)|
    ensures ReadLine(s).0 != [] ==> |Deliverable(ReadLine(s).1)| < |Deliverable(s)|
  {
    var (line, s1) := ReadLine(s);
    LineSplits(Deliverable(s), line, Deliverable(s1), s1.error);
  }

  /** One round of the chunked loop: `None` when the loop ends, with the stream it ends
      on; otherwise the longer body and the stream, with strictly fewer bytes to come. A
      negative size that `reserve` cannot take throws. */
  function ChunkStep(s: Stream, body: string): (r: Result<(Option<string>, Stream), FrameError>)
    requires Valid(s)
    ensures r.Err? <==> ParseLong(ReadLine(s).0, 16).Some? && ReserveThrows(|body|, ParseLong(ReadLine(s).0, 16).value)
    ensures r.Err? ==> r.error == ReserveLengthError
    ensures r.Ok? ==> Valid(r.value.1)
    ensures r.Ok? && r.value.0.Some? ==> body <= r.value.0.value && |Deliverable(r.value.1)| < |Deliverable(s)|
  {
    var (sizeLine, s1) := ReadLine(s);
    ReadLineShrinks(s);
    match ParseLong(sizeLine, 16)
    case None => Ok((None, s1))
    case Some(size) =>
      if size == 0 then Ok((None, ReadLine(s1).1))
      else
        match ReadExact(s1, body, size)
        case None => Err(ReserveLengthError)
        case Some(got) =>
          var (body', s2) := got;
          CopyExactShrinks(s1, body, size);
          ReadLineShrinks(s2);
          Ok((Some(body'), ReadLine(s2).1))
  }

  /** The chunked loop: a hexadecimal size line; size zero consumes one more line and
      ends; otherwise that many bytes are appended and the line after them is skipped.
      A size line `stol` cannot convert ends the loop with the body read so far; a
      negative size larger than the body read so far ends the program. */
  function DecodeChunks(s: Stream, body: string): (r: Result<(string, Stream), FrameError>)
    requires Valid(s)
    ensures r.Ok? ==> Valid(r.value.1) && body <= r.value.0
    ensures r.Err? ==> r.error == ReserveLengthError
    decreases |Deliverable(s)|
  {
    match ChunkStep(s, body)
    case Err(e) => Err(e)
    case Ok((None, s1)) => Ok((body, s1))
    case Ok((Some(body'), s1)) => DecodeChunks(s1, body')
  }

  /** The three body-delimiting strategies, in the order the client tries them. */
  datatype BodyKind = ByLength(n: int) | Chunked | UntilClose

  /** A content-length (which `stol` made non-negative) wins over `chunked`. */
  function BodyKindOf(h: Headers): BodyKind {
    if h.contentLength >= 0 then ByLength(h.contentLength)
    else if h.chunked then Chunked
    else UntilClose
  }

  /** A close-delimited body: everything still to come; the connection is closed after. */
  function ReadToClose(s: Stream): (r: (string, Stream))
    requires Valid(s)
    ensures Valid(r.1) && r.1.closed && Deliverable(r.1) == []
    ensures r.0 == Deliverable(s)
  {
    (Deliverable(s), Stream(s.buf, |s.buf|, s.error, true, []))
  }

  /** The body, read with the strategy the headers select. Only a chunked body can make
      `reserve` throw: the length branch is taken only for a non-negative length. */
  function ReadBody(s: Stream, h: Headers): (r: Result<(string, Stream), FrameError>)
    requires Valid(s)
    ensures r.Ok? ==> Valid(r.value.1)
    ensures r.Err? ==> BodyKindOf(h).Chunked? && r.error == ReserveLengthError
  {
    match BodyKindOf(h)
    case ByLength(n) =>
      (match ReadExact(s, [], n)
       case None => Err(ReserveLengthError)
       case Some(got) => Ok(got))
    case Chunked => DecodeChunks(s, [])
    case UntilClose => Ok(ReadToClose(s))
  }

  /** The close-delimited loop AS WRITTEN: it calls `recv`/`SSL_read` on the connection
      itself, not on the stream, so it gets only what the peer has still to send (nothing
      once the connection is closed); bytes already in the stream's buffer are skipped. */
  function RawReadToClose(s: Stream): (r: (string, Stream))
    requires Valid(s)
    ensures Valid(r.1) && r.1.closed && Deliverable(r.1) == []
    ensures !s.closed ==> Deliverable(s) == Unread(s) + r.0
    ensures s.closed ==> r.0 == []
  {
    (if s.closed then [] else Concat(s.peer), Stream(s.buf, |s.buf|, s.error, true, []))
  }

  /** The body reader as written, differing from `ReadBody` only in the close-delimited case. */
  function ReadBodyAsWritten(s: Stream, h: Headers): (r: Result<(string, Stream), FrameError>)
    requires Valid(s)
    ensures r.Ok? ==> Valid(r.value.1)
    ensures !BodyKindOf(h).UntilClose? ==> r == ReadBody(s, h)
  {
    match BodyKindOf(h)
    case UntilClose => Ok(RawReadToClose(s))
    case _ => ReadBody(s, h)
  }

  /** The discrepancy: for a close-delimited body, the loop as written loses exactly the
      bytes that arrived together with the header block, while the corrected reader
      returns them in front of the rest. */
  lemma RawReadLosesBuffered(s: Stream, h: Headers)
    requires Valid(s) && BodyKindOf(h).UntilClose? && !s.closed
    ensures ReadBody(s, h).Ok? && ReadBodyAsWritten(s, h).Ok?
    ensures ReadBody(s, h).value.0 == Unread(s) + ReadBodyAsWritten(s, h).value.0
    ensures Unread(s) != [] <==> ReadBody(s, h).value.0 != ReadBodyAsWritten(s, h).value.0
  {
  }

  /** A parsed response, whether the connection must be closed afterwards, and the stream. */
  datatype Framed = Framed(response: HttpResponse, closeConnection: bool, rest: Stream)

  /** One response as `perform_request` reads it. `status` is the code `sscanf` takes from
      the status line (the conversion itself is not modelled). */
  function ReadResponse(s: Stream, status: int): (r: Result<Framed, FrameError>)
    requires Valid(s)
    ensures r == Err(NoStatusLine) <==> Deliverable(s) == []
    ensures r.Ok? ==> Valid(r.value.rest) && r.value.response.status == status
  {
    var (statusLine, s1) := ReadLine(s);
    LineSplits(Deliverable(s), statusLine, Deliverable(s1), s1.error);
    if statusLine == [] then Err(NoStatusLine)
    else
      var block := ReadHeaderLines(s1);
      match ApplyHeaders(NoHeaders, block.lines)
      case Err(e) => Err(e)
      case Ok(h) =>
        match ReadBody(block.rest, h)
        case Err(e) => Err(e)
        case Ok((body, s3)) =>
          Ok(Framed(HttpResponse(status, h.fields, body), h.close || BodyKindOf(h).UntilClose?, s3))
  }
}

=== FILE: numbers.dfy ===
/** The integer conversions the client relies on: `std::stol` (base 10 for
    content-length, base 16 for chunk sizes) and `std::to_string` for pool keys. */
module Numbers {
  import opened Wrappers

  /** `long` is 32 bits wide on the Windows targets the client is written for. */
  const LongMin: int := -0x8000_0000
  const LongMax: int := 0x7FFF_FFFF

  /** `isspace` in the "C" locale: space, tab, newline, vertical tab, form feed, carriage return. */
  predicate IsCSpace(c: char) {
    c == ' ' || c == '\t' || c == '\n' || c == '\r' || c as int == 0x0B || c as int == 0x0C
  }

  /** Digit value of `c` in any base up to 36; 36 for a character that is no digit at all. */
  function CharValue(c: char): (v: nat)
    ensures v <= 36
  {
    if '0' <= c <= '9' then c as int - '0' as int
    else if 'a' <= c <= 'z' then c as int - 'a' as int + 10
    else if 'A' <= c <= 'Z' then c as int - 'A' as int + 10
    else 36
  }

  predicate IsDigitOf(c: char, base: nat) {
    CharValue(c) < base
  }

  predicate AllDigits(ds: string, base: nat) {
    forall i :: 0 <= i < |ds| ==> IsDigitOf(ds[i], base)
  }

  /** The number a run of digits denotes, most significant digit first. */
  function ValueOf(ds: string, base: nat): nat
  {
    if |ds| == 0 then 0
    else ValueOf(ds[..|ds| - 1], base) * base + CharValue(ds[|ds| - 1])
  }

  /** Lower-case digit character for `d`. */
  function DigitChar(d: nat): (c: char)
    requires d < 16
    ensures CharValue(c) == d
  {
    "0123456789abcdef"[d]
  }

  /** The digits of `n` in `base`, without leading zeros. */
  function ToDigits(n: nat, base: nat): (r: string)
    requires 2 <= base <= 16
    ensures |r| > 0 && AllDigits(r, base)
    ensures ValueOf(r, base) == n
    ensures r[0] == '0' ==> n == 0 && |r| == 1
    decreases n
  {
    if n < base then
      assert [DigitChar(n)][..0] == [];
      [DigitChar(n)]
    else
      var q := n / base;
      DivMod(n, base);
      var front := ToDigits(q, base);
      var r := front + [DigitChar(n % base)];
      assert r[..|r| - 1] == front;
      assert ValueOf(r, base) == ValueOf(front, base) * base + n % base;
      assert r[0] == front[0];
      r
  }

  lemma DivMod(n: nat, base: nat)
    requires 2 <= base <= n
    ensures n == (n / base) * base + n % base
    ensures 0 < n / base < n
  {
  }

  /** `std::to_string` for an `int`. */
  function IntToString(n: int): (r: string)
    ensures |r| > 0
    ensures n < 0 <==> r[0] == '-'
  {
    if n < 0 then "-" + ToDigits(-n, 10) else ToDigits(n, 10)
  }

  /** Distinct numbers print differently, so `host:port` keys of different ports differ. */
  lemma IntToStringInjective(a: int, b: int)
    requires IntToString(a) == IntToString(b)
    ensures a == b
  {
    if a < 0 {
      assert IntToString(a)[1..] == ToDigits(-a, 10);
      assert IntToString(b)[1..] == ToDigits(-b, 10);
    }
  }

  /** Number of leading C whitespace characters. */
  function SpaceRun(s: string): (k: nat)
    ensures k <= |s|
    ensures forall i :: 0 <= i < k ==> IsCSpace(s[i])
    ensures k == |s| || !IsCSpace(s[k])
  {
    if |s| > 0 && IsCSpace(s[0]) then 1 + SpaceRun(s[1..]) else 0
  }

  /** Length of the longest prefix of `s` made of digits of `base`. */
  function DigitRun(s: string, base: nat): (k: nat)
    ensures k <= |s|
    ensures AllDigits(s[..k], base)
    ensures k == |s| || !IsDigitOf(s[k], base)
  {
    if |s| > 0 && IsDigitOf(s[0], base) then
      var k := 1 + DigitRun(s[1..], base);
      assert s[..k] == [s[0]] + s[1..][..k - 1];
      k
    else 0
  }

  /** `std::stol(s, nullptr, base)`: skips leading whitespace, takes an optional sign and,
      in base 16, an optional `0x`/`0X` prefix, then converts the longest run of digits.
      `None` is the exception `stol` throws: no digits at all (`invalid_argument`) or a
      value outside `long` (`out_of_range`). Characters after the digits are ignored. */
  function ParseLong(s: string, base: nat): (r: Option<int>)
    requires base == 10 || base == 16
    ensures r.Some? ==> LongMin <= r.value <= LongMax
    ensures r.Some? ==> exists i :: 0 <= i < |s| && IsDigitOf(s[i], base)
  {
    var t := s[SpaceRun(s)..];
    var negative := |t| > 0 && t[0] == '-';
    var u := if |t| > 0 && (t[0] == '-' || t[0] == '+') then t[1..] else t;
    var v := if base == 16 && |u| > 2 && u[0] == '0' && (u[1] == 'x' || u[1] == 'X') && IsDigitOf(u[2], 16)
             then u[2..] else u;
    var k := DigitRun(v, base);
    if k == 0 then None
    else
      assert v[0] == v[..k][0];
      var magnitude := ValueOf(v[..k], base);
      var value: int := if negative then 0 - magnitude else magnitude;
      if LongMin <= value <= LongMax then Some(value) else None
  }

  /** A tail that cannot extend a number written in `base`. */
  predicate EndsNumber(tail: string, base: nat) {
    |tail| == 0 || (!IsDigitOf(tail[0], base) && tail[0] != 'x' && tail[0] != 'X')
  }

  /** Round trip: `stol` reads back the digits `ToDigits` wrote, whatever follows them. */
  lemma {:induction false} ParseToDigits(n: nat, base: nat, tail: string)
    requires base == 10 || base == 16
    requires n <= LongMax
    requires EndsNumber(tail, base)
    ensures ParseLong(ToDigits(n, base) + tail, base) == Some(n)
  {
    var ds := ToDigits(n, base);
    var s := ds + tail;
    assert !IsCSpace(s[0]) by { assert IsDigitOf(s[0], base); }
    assert SpaceRun(s) == 0;
    assert s[0..] == s;
    assert s[0] != '-' && s[0] != '+' by { assert IsDigitOf(ds[0], base); }
    if base == 16 && |s| > 2 && s[0] == '0' && (s[1] == 'x' || s[1] == 'X') {
      assert false;
    }
    DigitRunOf(ds, tail, base);
    assert s[..|ds|] == ds;
  }

  /** The digit run of `ds + tail` is exactly `ds` when `tail` does not continue it. */
  lemma {:induction false} DigitRunOf(ds: string, tail: string, base: nat)
    requires AllDigits(ds, base)
    requires |tail| == 0 || !IsDigitOf(tail[0], base)
    ensures DigitRun(ds + tail, base) == |ds|
    decreases |ds|
  {
    if |ds| > 0 {
      assert (ds + tail)[1..] == ds[1..] + tail;
      DigitRunOf(ds[1..], tail, base);
    } else {
      assert ds + tail == tail;
    }
  }
}

=== FILE: pins.dfy ===
/** The Pinterest-specific helpers of main.cpp: the pin id of a URL, the URL cut after the
    pin id, the names of the saved files, and how the page to scrape is fetched. */
module Pins {
  import opened Wrappers
  import opened Text
  import opened Framing
  import opened Urls
  import opened Client

  const PinMarker: string := "/pin/"

  /** The stem used when no pin id is known. */
  const DefaultStem: string := "pinterest_video"

  /** `extract_pin_id`: the text after the first `/pin/`, up to the next `/` or the end. */
  function ExtractPinId(url: string): (r: string)
    ensures !Contains(url, PinMarker) ==> r == []
    ensures Lacks(r, '/')
    ensures Contains(url, PinMarker) ==>
      var start := Find(url, PinMarker, 0).value + |PinMarker|;
      start + |r| <= |url| && url[start..start + |r|] == r &&
      (start + |r| == |url| || url[start + |r|] == '/')
  {
    match Find(url, PinMarker, 0)
    case None => []
    case Some(p) =>
      match FindChar(url, '/', p + 5)
      case None => url[p + 5..]
      case Some(e) => url[p + 5..e]
  }

  /** `sanitize_pinterest_url`: the URL up to and including the `/` that closes the pin id;
      unchanged when there is no `/pin/` or nothing closes the id. */
  function SanitizeUrl(url: string): (r: string)
    ensures |r| <= |url| && url[..|r|] == r
    ensures r == url || (|r| > 0 && r[|r| - 1] == '/')
    ensures !Contains(url, PinMarker) ==> r == url
    ensures Contains(url, PinMarker) ==>
      var e := FindChar(url, '/', Find(url, PinMarker, 0).value + |PinMarker|);
      (e.None? ==> r == url) && (e.Some? ==> r == url[..e.value + 1])
  {
    match Find(url, PinMarker, 0)
    case None => url
    case Some(p) =>
      match FindChar(url, '/', p + 5)
      case None => url
      case Some(e) => url[..e + 1]
  }

  /** Sanitizing twice is sanitizing once. */
  lemma SanitizeIdempotent(url: string)
    ensures SanitizeUrl(SanitizeUrl(url)) == SanitizeUrl(url)
  {
    match Find(url, PinMarker, 0)
    case None =>
    case Some(p) =>
      match FindChar(url, '/', p + 5)
      case None =>
      case Some(e) =>
        var u := url[..e + 1];
        CutKeepsSearches(url, p, e);
        assert SanitizeUrl(url) == u;
        assert u[..e + 1] == u;
  }

  /** Sanitizing keeps the pin id, which names the saved files. */
  lemma SanitizeKeepsPinId(url: string)
    ensures ExtractPinId(SanitizeUrl(url)) == ExtractPinId(url)
  {
    match Find(url, PinMarker, 0)
    case None =>
    case Some(p) =>
      match FindChar(url, '/', p + 5)
      case None =>
      case Some(e) =>
        assert SanitizeUrl(url) == url[..e + 1];
        assert ExtractPinId(url) == url[p + 5..e];
        PinIdOfCut(url, p, e);
  }

  /** The URL cut after the `/` that closes the pin id still has that pin id. */
  lemma PinIdOfCut(url: string, p: nat, e: nat)
    requires Find(url, PinMarker, 0) == Some(p) && FindChar(url, '/', p + 5) == Some(e)
    ensures ExtractPinId(url[..e + 1]) == url[p + 5..e]
  {
    var u := url[..e + 1];
    CutKeepsSearches(url, p, e);
    assert u[p + 5..e] == url[p + 5..e];
  }

  /** Both searches give the same answers on the URL cut after the `/` that closes the id. */
  lemma CutKeepsSearches(url: string, p: nat, e: nat)
    requires Find(url, PinMarker, 0) == Some(p) && FindChar(url, '/', p + 5) == Some(e)
    ensures Find(url[..e + 1], PinMarker, 0) == Some(p) && FindChar(url[..e + 1], '/', p + 5) == Some(e)
  {
    FindInPrefix(url, PinMarker, p, e + 1);
    FindCharInPrefix(url, '/', p + 5, e, e + 1);
  }

  /** The pin id, or the default stem when there is none. */
  function Stem(pinId: string): string {
    if pinId == [] then DefaultStem else pinId
  }

  /** The thumbnail's file name: a custom name with its last extension replaced by `.jpg`
      (or `.jpg` appended when it has none); otherwise the stem plus `.jpg`. */
  function ThumbnailName(custom: string, pinId: string): (r: string)
    ensures |r| >= 4 && r[|r| - 4..] == ".jpg"
    ensures custom == [] ==> r == Stem(pinId) + ".jpg"
    ensures custom != [] ==>
      var base := r[..|r| - 4];
      |base| <= |custom| && custom[..|base|] == base &&
      (|base| == |custom| || (custom[|base|] == '.' && Lacks(custom[|base| + 1..], '.')))
    ensures custom != [] && Lacks(custom, '.') ==> r == custom + ".jpg"
    ensures custom != [] && !Lacks(custom, '.') ==> |r| - 4 < |custom|
  {
    if custom != [] then
      match FindLastChar(custom, '.')
      case Some(d) =>
        custom[..d] + ".jpg"
      case None => custom + ".jpg"
    else Stem(pinId) + ".jpg"
  }

  /** The video's file name: the custom name as given, otherwise the stem plus `.mp4`. */
  function VideoName(custom: string, pinId: string): (r: string)
    ensures custom != [] ==> r == custom
    ensures custom == [] ==> |r| > 4 && r[|r| - 4..] == ".mp4" && r[..|r| - 4] == Stem(pinId)
  {
    if custom != [] then custom else Stem(pinId) + ".mp4"
  }

  /** The thumbnail is named after the video: the video's name with its extension replaced
      by `.jpg` is the thumbnail's name. */
  lemma ThumbnailFollowsVideo(custom: string, pinId: string)
    ensures ThumbnailName(VideoName(custom, pinId), pinId) == ThumbnailName(custom, pinId)
  {
    if custom == [] {
      var v := Stem(pinId) + ".mp4";
      FindLastCharIs(v, '.', |v| - 4);
      assert v[..|v| - 4] == Stem(pinId);
    }
  }

  lemma FindLastCharIs(s: string, c: char, k: nat)
    requires k < |s| && s[k] == c && forall j :: k < j < |s| ==> s[j] != c
    ensures FindLastChar(s, c) == Some(k)
    decreases |s|
  {
    if s[|s| - 1] != c {
      FindLastCharIs(s[..|s| - 1], c, k);
    }
  }

  /** What `main` has before scraping: the page and the URL it came from. */
  datatype Page = Page(html: string, finalUrl: string)

  /** The fetch in `main`: follow redirects from the given URL; when the URL it ends on
      carries more than the pin path, fetch the sanitized URL again and keep that. */
  function ResolvePage(url: string, first: (nat, Url) -> HttpResponse, second: (nat, Url) -> HttpResponse)
    : (r: Page)
    requires LocationsNonEmpty(first) && LocationsNonEmpty(second)
    ensures SanitizeUrl(r.finalUrl) == r.finalUrl
    ensures var landed := FetchUrl(url, [], DefaultMaxRedirects, first).finalUrl;
      ExtractPinId(r.finalUrl) == ExtractPinId(landed) &&
      r.finalUrl == SanitizeUrl(landed)
  {
    var fetched := FetchUrl(url, [], DefaultMaxRedirects, first);
    var clean := SanitizeUrl(fetched.finalUrl);
    SanitizeIdempotent(fetched.finalUrl);
    SanitizeKeepsPinId(fetched.finalUrl);
    if clean != fetched.finalUrl then
      Page(FetchUrl(clean, [], DefaultMaxRedirects, second).body, clean)
    else Page(fetched.body, fetched.finalUrl)
  }
}

=== FILE: pool.dfy ===
/** `GlobalState` of http_client.cpp: the connection pool keyed by `host:port`, the DNS
    cache and the TLS session cache. Sockets, name resolution and TLS are not modelled;
    their outcomes for one `get_connection` call arrive as a `ConnectEnv`. */
module Pool {
  import opened Wrappers
  import opened Text
  import opened Numbers

  /** A pooled connection. `offered` is the cached session handed to `SSL_set_session`. */
  datatype Connection = Connection(host: string, port: int, tls: bool, closed: bool, offered: Option<Session>)

  /** An `SSL_SESSION*`, as an opaque token. */
  type Session = nat

  datatype GlobalState = GlobalState(
    pool: map<string, Connection>,
    dns: map<string, string>,
    sessions: map<string, Session>)

  /** The state at program start. */
  const Initial := GlobalState(map[], map[], map[])

  /** What the outside world does during one `get_connection`: whether the peek at a pooled
      socket reports the peer gone, the address `getaddrinfo` yields (if it succeeds), whether
      `socket` and `connect` succeed, whether the TLS handshake succeeds, and the session
      `SSL_get1_session` returns afterwards. */
  datatype ConnectEnv = ConnectEnv(
    peerClosed: bool,
    address: Option<string>,
    socketOk: bool,
    connectOk: bool,
    handshakeOk: bool,
    session: Option<Session>)

  /** The pool key `host + ":" + std::to_string(port)`. */
  function Key(host: string, port: int): string {
    host + ":" + IntToString(port)
  }

  lemma IntToStringLacksColon(n: int)
    ensures Lacks(IntToString(n), ':')
  {
    var r := IntToString(n);
    var ds := if n < 0 then ToDigits(-n, 10) else ToDigits(n, 10);
    forall i | 0 <= i < |r| ensures r[i] != ':' {
      if n < 0 && i > 0 {
        assert r[i] == ds[i - 1];
        assert IsDigitOf(ds[i - 1], 10);
      } else if n >= 0 {
        assert IsDigitOf(ds[i], 10);
      }
    }
  }

  /** Past the host, the only `:` of a key is the one right after it. */
  lemma KeyColon(h: string, p: int, i: int)
    ensures |h| <= i < |Key(h, p)| && Key(h, p)[i] == ':' ==> i == |h|
  {
    IntToStringLacksColon(p);
    if |h| < i < |Key(h, p)| {
      assert Key(h, p)[i] == IntToString(p)[i - |h| - 1];
    }
  }

  /** Keys tell connections apart: equal keys mean the same host and the same port. */
  lemma {:induction false} KeyInjective(h1: string, p1: int, h2: string, p2: int)
    requires Key(h1, p1) == Key(h2, p2)
    ensures h1 == h2 && p1 == p2
  {
    IntToStringLacksColon(p1);
    IntToStringLacksColon(p2);
    var k := Key(h1, p1);
    if |h1| < |h2| {
      KeyColon(h1, p1, |h2|);
      assert false;
    } else if |h2| < |h1| {
      KeyColon(h2, p2, |h1|);
      assert false;
    }
    assert h1 == k[..|h1|] == h2;
    assert IntToString(p1) == k[|h1| + 1..] == IntToString(p2);
    IntToStringInjective(p1, p2);
  }

  /** Every entry is filed under its own host and port. */
  predicate WellKeyed(pool: map<string, Connection>) {
    forall k :: k in pool ==> k == Key(pool[k].host, pool[k].port)
  }

  /** At most one connection per host and port. */
  lemma OnePerHostPort(pool: map<string, Connection>, k1: string, k2: string)
    requires WellKeyed(pool) && k1 in pool && k2 in pool
    requires pool[k1].host == pool[k2].host && pool[k1].port == pool[k2].port
    ensures k1 == k2
  {
  }

  /** A pooled connection `get_connection` can hand out again. */
  predicate Reusable(g: GlobalState, key: string) {
    key in g.pool && !g.pool[key].closed
  }

  /** The DNS cache only grows, never overwrites, and grows by at most `host`. */
  predicate DnsExtends(before: map<string, string>, after: map<string, string>, host: string) {
    && (forall h :: h in before ==> h in after && after[h] == before[h])
    && (forall h :: h in after ==> h in before || h == host)
  }

  /** `save_session`: a returned session replaces the one cached for the host. */
  function SaveSession(sessions: map<string, Session>, host: string, session: Option<Session>): (r: map<string, Session>)
    ensures session.Some? ==> host in r && r[host] == session.value
    ensures session.None? ==> r == sessions
    ensures forall h :: h != host ==> (h in r <==> h in sessions) && (h in r ==> r[h] == sessions[h])
  {
    match session
    case None => sessions
    case Some(s) => sessions[host := s]
  }

  /** The DNS step: a cached address is used without a lookup; otherwise the looked-up
      address is cached, and a failed lookup leaves the cache as it was. */
  function Resolve(dns: map<string, string>, host: string, address: Option<string>): (r: Option<map<string, string>>)
    ensures r.Some? ==> DnsExtends(dns, r.value, host) && host in r.value
    ensures host in dns ==> r == Some(dns)
    ensures r.None? <==> host !in dns && address.None?
  {
    if host in dns then Some(dns)
    else match address
      case None => None
      case Some(ip) => Some(dns[host := ip])
  }

  /** `get_connection`. A pooled connection is returned when it is open and the peek does
      not find the peer gone; otherwise it is erased and a new one is made. */
  function GetConnection(g: GlobalState, host: string, port: int, tls: bool, env: ConnectEnv)
    : (r: (Option<Connection>, GlobalState))
    ensures var key := Key(host, port);
      r.0.Some? ==> !r.0.value.closed && key in r.1.pool && r.1.pool[key] == r.0.value
    ensures r.0.None? ==> Key(host, port) !in r.1.pool
    ensures forall k :: k != Key(host, port) ==>
      (k in r.1.pool <==> k in g.pool) && (k in r.1.pool ==> r.1.pool[k] == g.pool[k])
    ensures DnsExtends(g.dns, r.1.dns, host)
    ensures forall h :: h != host ==>
      (h in r.1.sessions <==> h in g.sessions) && (h in r.1.sessions ==> r.1.sessions[h] == g.sessions[h])
    ensures Reusable(g, Key(host, port)) && !env.peerClosed ==> r == (Some(g.pool[Key(host, port)]), g)
    ensures !Reusable(g, Key(host, port)) || env.peerClosed ==>
      (r.0.Some? <==> (host in g.dns || env.address.Some?) && env.socketOk && env.connectOk && (!tls || env.handshakeOk))
    ensures WellKeyed(g.pool) ==> WellKeyed(r.1.pool)
  {
    var key := Key(host, port);
    if Reusable(g, key) && !env.peerClosed then (Some(g.pool[key]), g)
    else
      var g1 := g.(pool := g.pool - {key});
      match Resolve(g1.dns, host, env.address)
      case None => (None, g1)
      case Some(dns) =>
        var g2 := g1.(dns := dns);
        if !env.socketOk || !env.connectOk then (None, g2)
        else if tls && !env.handshakeOk then (None, g2)
        else
          var offered := if tls && host in g2.sessions then Some(g2.sessions[host]) else None;
          var c := Connection(host, port, tls, false, offered);
          var sessions := if tls then SaveSession(g2.sessions, host, env.session) else g2.sessions;
          (Some(c), g2.(pool := g2.pool[key := c], sessions := sessions))
  }

  /** A connection made anew is the requested one, offers the session cached for its host,
      and leaves that host's address in the DNS cache. */
  lemma FreshConnection(g: GlobalState, host: string, port: int, tls: bool, env: ConnectEnv)
    requires !Reusable(g, Key(host, port)) || env.peerClosed
    requires GetConnection(g, host, port, tls, env).0.Some?
    ensures var (c, g') := GetConnection(g, host, port, tls, env);
      c == Some(Connection(host, port, tls, false, if tls && host in g.sessions then Some(g.sessions[host]) else None)) &&
      host in g'.dns &&
      (tls && env.session.Some? ==> g'.sessions[host] == env.session.value)
  {
  }

  /** A closed entry is never handed out again: the next request for its key erases it
      and either fails or builds a new connection. */
  lemma ClosedNotReused(g: GlobalState, host: string, port: int, tls: bool, env: ConnectEnv)
    requires Key(host, port) in g.pool && g.pool[Key(host, port)].closed
    ensures var (c, g') := GetConnection(g, host, port, tls, env);
      c.Some? ==> c.value.host == host && c.value.port == port && c.value.tls == tls
  {
  }

  /** `close_conn` through the pointer the pool still holds: the entry stays, marked closed. */
  function MarkClosed(g: GlobalState, key: string): (r: GlobalState)
    ensures key in g.pool ==> key in r.pool && r.pool[key].closed
    ensures !Reusable(r, key)
    ensures forall k :: k != key ==> (k in r.pool <==> k in g.pool) && (k in r.pool ==> r.pool[k] == g.pool[k])
    ensures key in r.pool <==> key in g.pool
    ensures r.dns == g.dns && r.sessions == g.sessions
    ensures WellKeyed(g.pool) ==> WellKeyed(r.pool)
  {
    if key in g.pool then g.(pool := g.pool[key := g.pool[key].(closed := true)]) else g
  }
}

=== FILE: scrape.dfy ===
/** `find_video_url` and `find_thumbnail_url` (parser.cpp): ordered searches for a marker
    and the quote that ends the text after it. */
module Scrape {
  import opened Wrappers
  import opened Text

  /** The video anchors, newest page layout first. */
  const Anchors: seq<string> := [
    "\"v720P\":{\"thumbnail\":",
    "\"videoList720P\":{\"v720P\":{\"thumbnail\"",
    "\"video_list\":{\"V_720P\"",
    "\"videoList\":{\"V_720P\"",
    "\"v720P\":{\"url\""
  ]

  /** `"url":"`, which opens a video URL. */
  const UrlMarker: string := "\"url\":\""

  /** The Open Graph image tag up to the opening quote of its content. */
  const OgMarker: string := "<meta property=\"og:image\" content=\""

  /** The JSON anchor of the thumbnail fallback, and the marker inside it. */
  const ThumbAnchor: string := "\"v720P\":{\"thumbnail\":\""
  const ThumbMarker: string := "\"thumbnail\":\""

  /** A piece of the page: from `start` up to (not including) the quote at `end`. */
  datatype Span = Span(start: nat, end: nat)

  /** `sp` is a quoted text of `html`: it ends at a quote and holds none. */
  predicate Quoted(html: string, sp: Span) {
    sp.start <= sp.end < |html| && html[sp.end] == '"' && Lacks(html[sp.start..sp.end], '"')
  }

  function Slice(html: string, sp: Span): string
    requires sp.start <= sp.end <= |html|
  {
    html[sp.start..sp.end]
  }

  /** The text after the first `marker` at or after `from`, up to the next quote. */
  function QuotedAfter(html: string, marker: string, from: nat): (r: Option<Span>)
    ensures r.Some? ==> Quoted(html, r.value)
    ensures r.Some? ==>
      from + |marker| <= r.value.start && Find(html, marker, from) == Some(r.value.start - |marker|)
    ensures r.None? ==> (Find(html, marker, from).None? ||
      Lacks(html[Find(html, marker, from).value + |marker|..], '"'))
  {
    match Find(html, marker, from)
    case None => None
    case Some(p) => QuotedFrom(html, p + |marker|)
  }

  /** The text from `start` up to the next quote, if there is one. */
  function QuotedFrom(html: string, start: nat): (r: Option<Span>)
    ensures r.Some? ==> Quoted(html, r.value) && r.value.start == start
    ensures r.None? ==> start >= |html| || Lacks(html[start..], '"')
  {
    match FindChar(html, '"', start)
    case None => None
    case Some(q) => Some(Span(start, q))
  }

  /** What one video anchor yields: the quoted text after the first `"url":"` at or after
      the anchor's first occurrence. */
  function Yield(html: string, anchor: string): (r: Option<Span>)
    ensures r.Some? ==> Quoted(html, r.value)
    ensures r.Some? ==> Contains(html, anchor) && Find(html, anchor, 0).value + |UrlMarker| <= r.value.start
    ensures Contains(html, anchor) ==> r == QuotedAfter(html, UrlMarker, Find(html, anchor, 0).value)
  {
    match Find(html, anchor, 0)
    case None => None
    case Some(a) => QuotedAfter(html, UrlMarker, a)
  }

  /** The loop over the anchors: the first one for which `attempt` finds something. */
  function FirstYield(anchors: seq<string>, attempt: string -> Option<Span>): Option<Span>
  {
    if anchors == [] then None
    else match attempt(anchors[0])
      case Some(sp) => Some(sp)
      case None => FirstYield(anchors[1..], attempt)
  }

  /** The anchors are tried in order: the result is what the first yielding anchor yields,
      and nothing when none yields. */
  lemma {:induction false} FirstYieldIs(anchors: seq<string>, attempt: string -> Option<Span>)
    ensures FirstYield(anchors, attempt).None? <==> forall k :: 0 <= k < |anchors| ==> attempt(anchors[k]).None?
    ensures FirstYield(anchors, attempt).Some? ==>
      exists k :: 0 <= k < |anchors| && attempt(anchors[k]) == FirstYield(anchors, attempt) &&
        forall j :: 0 <= j < k ==> attempt(anchors[j]).None?
    ensures forall k ::
              0 <= k < |anchors| && attempt(anchors[k]).Some? && (forall j :: 0 <= j < k ==> attempt(anchors[j]).None?)
              ==> FirstYield(anchors, attempt) == attempt(anchors[k])
  {
    if anchors != [] {
      var tail := anchors[1..];
      FirstYieldIs(tail, attempt);
      assert forall k :: 1 <= k < |anchors| ==> anchors[k] == tail[k - 1];
      if attempt(anchors[0]).None? {
        if FirstYield(anchors, attempt).Some? {
          var k :| 0 <= k < |tail| && attempt(tail[k]) == FirstYield(tail, attempt) &&
            forall j :: 0 <= j < k ==> attempt(tail[j]).None?;
          assert anchors[k + 1] == tail[k];
          forall j | 0 <= j < k + 1 ensures attempt(anchors[j]).None? {
            if j > 0 { assert anchors[j] == tail[j - 1]; }
          }
        }
      }
    }
  }

  /** `find_video_url`: the first anchor's URL, or the empty string. */
  function FindVideoUrl(html: string): (r: string)
    ensures Lacks(r, '"')
    ensures r != [] ==> exists sp :: Quoted(html, sp) && Slice(html, sp) == r
    ensures (forall k :: 0 <= k < |Anchors| ==> Yield(html, Anchors[k]).None?) ==> r == []
    ensures forall k ::
              0 <= k < |Anchors| && Yield(html, Anchors[k]).Some? && (forall j :: 0 <= j < k ==> Yield(html, Anchors[j]).None?)
              ==> r == Slice(html, Yield(html, Anchors[k]).value)
  {
    var attempt := (a: string) => Yield(html, a);
    FirstYieldIs(Anchors, attempt);
    match FirstYield(Anchors, attempt)
    case None => []
    case Some(sp) =>
      var k :| 0 <= k < |Anchors| && attempt(Anchors[k]) == Some(sp);
      assert Quoted(html, sp);
      Slice(html, sp)
  }

  /** `find_thumbnail_url`: the Open Graph image when its tag has a closing quote; else the
      text after the `"thumbnail":"` found from the JSON anchor on; else nothing. */
  function ThumbnailSpan(html: string): (r: Option<Span>)
    ensures r.Some? ==> Quoted(html, r.value)
    ensures QuotedAfter(html, OgMarker, 0).Some? ==> r == QuotedAfter(html, OgMarker, 0)
    ensures QuotedAfter(html, OgMarker, 0).None? && !Contains(html, ThumbAnchor) ==> r.None?
    ensures QuotedAfter(html, OgMarker, 0).None? && Contains(html, ThumbAnchor) ==>
      r == QuotedAfter(html, ThumbMarker, Find(html, ThumbAnchor, 0).value)
  {
    match QuotedAfter(html, OgMarker, 0)
    case Some(sp) => Some(sp)
    case None =>
      match Find(html, ThumbAnchor, 0)
      case None => None
      case Some(a) => QuotedAfter(html, ThumbMarker, a)
  }

  /** The thumbnail URL: a quote-free piece of the page, empty when neither search finds
      a marker and a closing quote. */
  function FindThumbnailUrl(html: string): (r: string)
    ensures Lacks(r, '"')
    ensures r != [] ==> exists sp :: Quoted(html, sp) && Slice(html, sp) == r
    ensures ThumbnailSpan(html).None? ==> r == []
    ensures QuotedAfter(html, OgMarker, 0).Some? ==> r == Slice(html, QuotedAfter(html, OgMarker, 0).value)
    ensures var a := Find(html, ThumbAnchor, 0);
      QuotedAfter(html, OgMarker, 0).None? && a.Some? && QuotedAfter(html, ThumbMarker, a.value).Some? ==>
        r == Slice(html, QuotedAfter(html, ThumbMarker, a.value).value)
  {
    match ThumbnailSpan(html)
    case None => []
    case Some(sp) => Slice(html, sp)
  }

  /** In the fallback the `"thumbnail":"` found is the one inside the anchor itself, so the
      text starts right after the anchor. */
  lemma ThumbMarkerInAnchor(html: string, a: nat)
    requires OccursAt(html, ThumbAnchor, a)
    ensures Find(html, ThumbMarker, a) == Some(a + 9)
  {
    forall j: nat | a <= j < a + 9 ensures !OccursAt(html, ThumbMarker, j) {
      assert html[j] == ThumbAnchor[j - a] && html[j + 1] == ThumbAnchor[j - a + 1];
    }
    assert ThumbAnchor[9..22] == ThumbMarker;
    assert html[a + 9..a + 22] == ThumbAnchor[9..22];
    FindIs(html, ThumbMarker, a, a + 9);
  }

  /** Without a usable Open Graph tag, a thumbnail is the quoted text right after the first
      JSON anchor. */
  lemma ThumbnailFallback(html: string)
    requires QuotedAfter(html, OgMarker, 0).None? && Contains(html, ThumbAnchor)
    ensures ThumbnailSpan(html) == QuotedFrom(html, Find(html, ThumbAnchor, 0).value + |ThumbAnchor|)
  {
    var a := Find(html, ThumbAnchor, 0).value;
    ThumbMarkerInAnchor(html, a);
    assert ThumbnailSpan(html) == QuotedAfter(html, ThumbMarker, a);
  }
}

=== FILE: text.dfy ===
/** Searching and case mapping on `std::string`, modelled as `seq<char>`. */
module Text {
  import opened Wrappers

  /** `pat` occurs in `s` starting at index `i`. */
  predicate OccursAt(s: string, pat: string, i: nat) {
    i + |pat| <= |s| && s[i..i + |pat|] == pat
  }

  /** `std::string::find(pat, from)`: the first occurrence of `pat` at or after `from`. */
  function Find(s: string, pat: string, from: nat): (r: Option<nat>)
    ensures r.Some? ==> from <= r.value && OccursAt(s, pat, r.value)
    ensures r.Some? ==> forall j: nat :: from <= j < r.value ==> !OccursAt(s, pat, j)
    ensures r.None? ==> forall j: nat :: from <= j ==> !OccursAt(s, pat, j)
    decreases |s| - from
  {
    if from + |pat| > |s| then None
    else if s[from..from + |pat|] == pat then Some(from)
    else Find(s, pat, from + 1)
  }

  /** Any occurrence at `k` with none before it (from `from` on) is the one `Find` reports. */
  lemma FindIs(s: string, pat: string, from: nat, k: nat)
    requires from <= k && OccursAt(s, pat, k)
    requires forall j: nat :: from <= j < k ==> !OccursAt(s, pat, j)
    ensures Find(s, pat, from) == Some(k)
  {
  }

  /** `std::string::find(c, from)` for a single character. */
  function FindChar(s: string, c: char, from: nat): (r: Option<nat>)
    ensures r.Some? ==> from <= r.value < |s| && s[r.value] == c
    ensures r.Some? ==> forall j :: from <= j < r.value ==> s[j] != c
    ensures r.None? ==> forall j :: from <= j < |s| ==> s[j] != c
    decreases |s| - from
  {
    if from >= |s| then None
    else if s[from] == c then Some(from)
    else FindChar(s, c, from + 1)
  }

  /** The first `c` at or after `from` is the one `FindChar` reports. */
  lemma FindCharIs(s: string, c: char, from: nat, k: nat)
    requires from <= k < |s| && s[k] == c
    requires forall j :: from <= j < k ==> s[j] != c
    ensures FindChar(s, c, from) == Some(k)
  {
  }

  /** `FindChar` reports nothing when no `c` follows `from`. */
  lemma FindCharNone(s: string, c: char, from: nat)
    requires forall j :: from <= j < |s| ==> s[j] != c
    ensures FindChar(s, c, from) == None
  {
  }

  /** `std::string::find_last_of(c)`: the last index holding `c`. */
  function FindLastChar(s: string, c: char): (r: Option<nat>)
    ensures r.Some? ==> r.value < |s| && s[r.value] == c
    ensures r.Some? ==> forall j :: r.value < j < |s| ==> s[j] != c
    ensures r.None? ==> forall j :: 0 <= j < |s| ==> s[j] != c
  {
    if |s| == 0 then None
    else if s[|s| - 1] == c then Some(|s| - 1)
    else FindLastChar(s[..|s| - 1], c)
  }

  /** `s.find(pat) != npos`. */
  predicate Contains(s: string, pat: string) {
    Find(s, pat, 0).Some?
  }

  /** No character of `s` is `c`. */
  predicate Lacks(s: string, c: char) {
    forall i :: 0 <= i < |s| ==> s[i] != c
  }

  predicate IsUpper(c: char) {
    'A' <= c <= 'Z'
  }

  /** `std::tolower` in the "C" locale: only ASCII capitals change. */
  function LowerChar(c: char): (r: char)
    ensures !IsUpper(r)
    ensures IsUpper(c) ==> r as int == c as int + 32
    ensures !IsUpper(c) ==> r == c
  {
    if IsUpper(c) then (c as int - 'A' as int + 'a' as int) as char else c
  }

  /** `to_lower` (http_client.cpp): maps every character through `std::tolower`. */
  function ToLower(s: string): (r: string)
    ensures |r| == |s|
    ensures forall i :: 0 <= i < |s| ==> !IsUpper(r[i])
    ensures forall i :: 0 <= i < |s| ==> (r[i] == s[i] <==> !IsUpper(s[i]))
    ensures forall i :: 0 <= i < |s| && IsUpper(s[i]) ==> r[i] as int == s[i] as int + 32
  {
    seq(|s|, i requires 0 <= i < |s| => LowerChar(s[i]))
  }

  /** Lower-casing a lower-cased name changes nothing. */
  lemma ToLowerIdempotent(s: string)
    ensures ToLower(ToLower(s)) == ToLower(s)
  {
  }

  /** Lower-casing never creates or removes a colon, so a header name stays colon-free. */
  lemma ToLowerKeepsColons(s: string)
    ensures Lacks(s, ':') <==> Lacks(ToLower(s), ':')
  {
  }

  predicate IsLineEnd(c: char) {
    c == '\r' || c == '\n'
  }

  /** The header-value trim of http_client.cpp: pops trailing CR and LF characters. */
  function StripLineEnd(s: string): (r: string)
    ensures r <= s
    ensures |r| == 0 || !IsLineEnd(r[|r| - 1])
    ensures forall i :: |r| <= i < |s| ==> IsLineEnd(s[i])
  {
    if |s| > 0 && IsLineEnd(s[|s| - 1]) then StripLineEnd(s[..|s| - 1]) else s
  }

  /** Trimming twice trims nothing more. */
  lemma StripLineEndIdempotent(s: string)
    ensures StripLineEnd(StripLineEnd(s)) == StripLineEnd(s)
  {
  }

  /** A first occurrence that lies inside a prefix is still the first one there. */
  lemma FindInPrefix(s: string, pat: string, p: nat, n: nat)
    requires Find(s, pat, 0) == Some(p) && p + |pat| <= n <= |s|
    ensures Find(s[..n], pat, 0) == Some(p)
  {
    FindInPrefixFrom(s, pat, 0, p, n);
  }

  lemma {:induction false} FindInPrefixFrom(s: string, pat: string, from: nat, p: nat, n: nat)
    requires from <= p && OccursAt(s, pat, p) && p + |pat| <= n <= |s|
    requires forall j: nat :: from <= j < p ==> !OccursAt(s, pat, j)
    ensures Find(s[..n], pat, from) == Some(p)
    decreases p - from
  {
    var t := s[..n];
    if from == p {
      assert t[p..p + |pat|] == s[p..p + |pat|];
    } else {
      assert t[from..from + |pat|] == s[from..from + |pat|];
      assert !OccursAt(s, pat, from);
      FindInPrefixFrom(s, pat, from + 1, p, n);
    }
  }

  /** The same for a single character. */
  lemma FindCharInPrefix(s: string, c: char, from: nat, q: nat, n: nat)
    requires FindChar(s, c, from) == Some(q) && q < n <= |s|
    ensures FindChar(s[..n], c, from) == Some(q)
  {
    FindCharIs(s[..n], c, from, q);
  }
}

=== FILE: urls.dfy ===
/** `parse_url`, the resolution of a redirect's `Location`, and the https-only guard of
    `download_file` (http_client.cpp). */
module Urls {
  import opened Wrappers
  import opened Text

  const Separator: string := "://"

  /** The four outputs of `parse_url`. */
  datatype Url = Url(protocol: string, host: string, path: string, port: int)

  /** The port `parse_url` picks: 443 for `https`, 80 for every other protocol. */
  function DefaultPort(protocol: string): int {
    if protocol == "https" then 443 else 80
  }

  /** The text of a URL whose path starts with `/`. */
  function UrlText(u: Url): string {
    u.protocol + Separator + u.host + u.path
  }

  /** `parse_url`: `None` for `false`. The protocol is the text before the first `://`,
      the host runs from there to the next `/`, and the path is the rest (or `/`). */
  function ParseUrl(url: string): (r: Option<Url>)
    ensures r.None? <==> !Contains(url, Separator)
    ensures r.Some? ==> forall j: nat :: j < |r.value.protocol| ==> !OccursAt(url, Separator, j)
    ensures r.Some? ==> Lacks(r.value.host, '/') && |r.value.path| > 0 && r.value.path[0] == '/'
    ensures r.Some? ==>
      url == UrlText(r.value) || (r.value.path == "/" && url == r.value.protocol + Separator + r.value.host)
    ensures r.Some? ==> r.value.port == DefaultPort(r.value.protocol)
  {
    match Find(url, Separator, 0)
    case None => None
    case Some(p) =>
      var protocol := url[..p];
      match FindChar(url, '/', p + 3)
      case None =>
        BareParts(url, p);
        Some(Url(protocol, url[p + 3..], "/", DefaultPort(protocol)))
      case Some(q) =>
        PathParts(url, p, q);
        Some(Url(protocol, url[p + 3..q], url[q..], DefaultPort(protocol)))
  }

  /** The pieces of a URL without a `/` after its `://`. */
  lemma BareParts(url: string, p: nat)
    requires Find(url, Separator, 0) == Some(p) && FindChar(url, '/', p + 3).None?
    ensures url == url[..p] + Separator + url[p + 3..] && Lacks(url[p + 3..], '/')
  {
    assert url[p..p + 3] == Separator;
    var host := url[p + 3..];
    forall i | 0 <= i < |host| ensures host[i] != '/' {
      assert host[i] == url[p + 3 + i];
    }
  }

  /** The pieces of a URL whose host ends at the `/` found at `q`. */
  lemma PathParts(url: string, p: nat, q: nat)
    requires Find(url, Separator, 0) == Some(p) && FindChar(url, '/', p + 3) == Some(q)
    ensures url == url[..p] + Separator + url[p + 3..q] + url[q..]
    ensures Lacks(url[p + 3..q], '/') && url[q..][0] == '/'
  {
    assert url[p..p + 3] == Separator;
    var host := url[p + 3..q];
    forall i | 0 <= i < |host| ensures host[i] != '/' {
      assert host[i] == url[p + 3 + i];
    }
  }

  /** A protocol, host and path as `parse_url` would return them. */
  predicate WellFormed(u: Url) {
    Lacks(u.protocol, ':') && Lacks(u.host, '/') && |u.path| > 0 && u.path[0] == '/' &&
    u.port == DefaultPort(u.protocol)
  }

  /** In `p://h...` with `p` free of colons, the first `://` is the one after `p`. */
  lemma SeparatorAfter(p: string, rest: string)
    requires Lacks(p, ':')
    ensures Find(p + Separator + rest, Separator, 0) == Some(|p|)
  {
    var url := p + Separator + rest;
    forall j: nat | j < |p| ensures !OccursAt(url, Separator, j) {
      assert url[j] == p[j];
    }
    assert url[|p|..|p| + 3] == Separator;
    FindIs(url, Separator, 0, |p|);
  }

  /** Round trip: a well-formed URL parses back to itself. */
  lemma {:induction false} ParseUrlText(u: Url)
    requires WellFormed(u)
    ensures ParseUrl(UrlText(u)) == Some(u)
  {
    var url := UrlText(u);
    var start := |u.protocol| + 3;
    SeparatorAfter(u.protocol, u.host + u.path);
    assert url == u.protocol + Separator + (u.host + u.path);
    forall j | start <= j < start + |u.host| ensures url[j] != '/' {
      assert url[j] == u.host[j - start];
    }
    assert url[start + |u.host|] == u.path[0];
    FindCharIs(url, '/', start, start + |u.host|);
    assert url[..|u.protocol|] == u.protocol;
    assert url[start..start + |u.host|] == u.host;
    assert url[start + |u.host|..] == u.path;
  }

  /** A URL without a path gets the path `/`. */
  lemma {:induction false} ParseUrlBare(protocol: string, host: string)
    requires Lacks(protocol, ':') && Lacks(host, '/')
    ensures ParseUrl(protocol + Separator + host) == Some(Url(protocol, host, "/", DefaultPort(protocol)))
  {
    var url := protocol + Separator + host;
    var start := |protocol| + 3;
    SeparatorAfter(protocol, host);
    forall j | start <= j < |url| ensures url[j] != '/' {
      assert url[j] == host[j - start];
    }
    FindCharNone(url, '/', start);
    assert url[..|protocol|] == protocol;
    assert url[start..] == host;
  }

  /** The `Location` handling of `fetch_url`: a value starting with `http` is taken as it
      is; any other is joined to the ROOT of the current host, with a `/` put in front
      when it has none. `loc.front()` on an empty value is undefined, hence the
      precondition. */
  function ResolveLocation(protocol: string, host: string, loc: string): (r: string)
    requires |loc| > 0
    ensures OccursAt(loc, "http", 0) ==> r == loc
    ensures !OccursAt(loc, "http", 0) ==>
      |r| > |protocol| + 3 + |host| && |r| >= |loc| &&
      r[..|protocol| + 3 + |host|] == protocol + Separator + host &&
      r[|protocol| + 3 + |host|] == '/' &&
      r[|r| - |loc|..] == loc
  {
    if OccursAt(loc, "http", 0) then loc
    else if loc[0] == '/' then protocol + Separator + host + loc
    else protocol + Separator + host + "/" + loc
  }

  /** The path a relative `Location` ends up with. */
  function RootPath(loc: string): string
    requires |loc| > 0
  {
    if loc[0] == '/' then loc else "/" + loc
  }

  /** A relative `Location` keeps the protocol, host and port, and its path is the value
      itself made absolute from the root (section 5.2 of RFC 3986 would merge it with the
      base path instead). */
  lemma {:induction false} ResolveRelative(protocol: string, host: string, loc: string)
    requires Lacks(protocol, ':') && Lacks(host, '/') && |loc| > 0 && !OccursAt(loc, "http", 0)
    ensures ParseUrl(ResolveLocation(protocol, host, loc)) ==
      Some(Url(protocol, host, RootPath(loc), DefaultPort(protocol)))
  {
    var u := Url(protocol, host, RootPath(loc), DefaultPort(protocol));
    if loc[0] == '/' {
      assert ResolveLocation(protocol, host, loc) == UrlText(u);
    } else {
      assert ResolveLocation(protocol, host, loc) == protocol + Separator + host + ("/" + loc);
    }
    ParseUrlText(u);
  }

  /** The guard of `download_file`: only a URL that parses with protocol `https`. */
  function DownloadAllowed(url: string): (ok: bool)
    ensures ok ==> ParseUrl(url).Some? && ParseUrl(url).value.port == 443
    ensures ok <==> ParseUrl(url).Some? && ParseUrl(url).value.protocol == "https"
  {
    match ParseUrl(url)
    case None => false
    case Some(u) => u.protocol == "https"
  }

  /** For a well-formed URL the guard accepts exactly the protocol `https`. */
  lemma DownloadAllowedText(u: Url)
    requires WellFormed(u)
    ensures DownloadAllowed(UrlText(u)) <==> u.protocol == "https"
  {
    ParseUrlText(u);
  }
}

=== FILE: wire.dfy ===
/** The sending side of the wire format, and round trips through the response reader:
    what a server writes in each framing is read back byte for byte. */
module Wire {
  import opened Wrappers
  import opened Text
  import opened Numbers
  import opened Buffered
  import opened Framing

  /** `name: value` as a server writes it, CRLF-terminated. */
  function FieldLine(name: string, value: string): string {
    name + ": " + value + "\r\n"
  }

  /** A header name and value that survive the trip through one header line. */
  predicate WellFormedField(name: string, value: string) {
    Lacks(name, ':') && Lacks(name, '\n') && Lacks(value, '\n') && (|value| == 0 || !IsLineEnd(value[|value| - 1]))
  }

  /** The chunked transfer coding of section 7.1 of RFC 9112 without extensions or
      trailer fields: each chunk as its hexadecimal size, CRLF, the data, CRLF; then
      the last chunk `0` and the empty line. */
  function EncodeChunks(chunks: seq<string>): string
    requires forall i :: 0 <= i < |chunks| ==> |chunks[i]| > 0
  {
    if |chunks| == 0 then "0\r\n\r\n"
    else ToDigits(|chunks[0]|, 16) + "\r\n" + chunks[0] + "\r\n" + EncodeChunks(chunks[1..])
  }

  lemma TerminatedCrlf(t: string)
    requires Lacks(t, '\n')
    ensures Terminated(t + "\r\n")
  {
    assert (t + "\r\n")[..|t| + 1] == t + "\r";
  }

  /** `read_line` returns exactly a terminated line at the front of the stream. */
  lemma ReadLineOf(s: Stream, line: string, rest: string)
    requires Valid(s) && Terminated(line) && Deliverable(s) == line + rest
    ensures ReadLine(s).0 == line && Deliverable(ReadLine(s).1) == rest && !ReadLine(s).1.error
  {
    var (got, s1) := ReadLine(s);
    LineOfTerminated(Deliverable(s), got, Deliverable(s1), s1.error, line, rest);
  }

  /** `StripLineEnd` removes exactly an appended CRLF. */
  lemma StripCrlf(t: string)
    requires |t| == 0 || !IsLineEnd(t[|t| - 1])
    ensures StripLineEnd(t + "\r\n") == t
  {
    var s := t + "\r\n";
    var r := StripLineEnd(s);
    assert s[|t|] == '\r' && s[|t| + 1] == '\n';
    if |t| > 0 {
      assert s[|t| - 1] == t[|t| - 1];
    }
    if |r| > 0 {
      assert r[|r| - 1] == s[|r| - 1];
    }
    assert r == s[..|r|];
  }

  /** A written header line splits back into its lower-cased name and its value. */
  lemma SplitFieldLine(name: string, value: string)
    requires WellFormedField(name, value)
    ensures SplitHeaderLine(FieldLine(name, value)) == Field(ToLower(name), value)
    ensures Terminated(FieldLine(name, value)) && !IsBlankLine(FieldLine(name, value))
  {
    var line := FieldLine(name, value);
    FieldLineColon(name, value);
    assert line[..|name|] == name;
    assert line[|name| + 2..] == value + "\r\n";
    StripCrlf(value);
    FieldLineTerminated(name, value);
  }

  lemma FieldLineColon(name: string, value: string)
    requires Lacks(name, ':')
    ensures FindChar(FieldLine(name, value), ':', 0) == Some(|name|)
  {
    var line := FieldLine(name, value);
    forall j | 0 <= j < |name| ensures line[j] != ':' {
      assert line[j] == name[j];
    }
    FindCharIs(line, ':', 0, |name|);
  }

  lemma FieldLineTerminated(name: string, value: string)
    requires Lacks(name, '\n') && Lacks(value, '\n')
    ensures Terminated(FieldLine(name, value)) && !IsBlankLine(FieldLine(name, value))
  {
    var t := name + ": " + value;
    assert FieldLine(name, value) == t + "\r\n";
    forall j | 0 <= j < |t| ensures t[j] != '\n' {
      if j < |name| { assert t[j] == name[j]; }
      else if j >= |name| + 2 { assert t[j] == value[j - |name| - 2]; }
    }
    TerminatedCrlf(t);
  }

  /** Header lines as a server writes them: terminated and not blank. */
  predicate HeaderLinesWritten(lines: seq<string>) {
    forall i :: 0 <= i < |lines| ==> Terminated(lines[i]) && !IsBlankLine(lines[i])
  }

  /** Round trip of a header block: the reader returns exactly the written lines and
      stops right after the empty line that ends them. */
  lemma {:induction false} HeaderBlockRoundTrip(s: Stream, lines: seq<string>, rest: string)
    requires Valid(s) && HeaderLinesWritten(lines)
    requires Deliverable(s) == Concat(lines) + "\r\n" + rest
    ensures ReadHeaderLines(s).lines == lines
    ensures ReadHeaderLines(s).blank == "\r\n"
    ensures Deliverable(ReadHeaderLines(s).rest) == rest
    decreases |lines|
  {
    if |lines| == 0 {
      TerminatedCrlf([]);
      ReadLineOf(s, "\r\n", rest);
    } else {
      var tail := Concat(lines[1..]) + "\r\n" + rest;
      assert Deliverable(s) == lines[0] + tail;
      ReadLineOf(s, lines[0], tail);
      HeaderBlockRoundTrip(ReadLine(s).1, lines[1..], rest);
    }
  }

  /** Round trip of the chunked coding: decoding appends the chunks, in order, byte for
      byte, and stops right after the last-chunk line and the empty line after it. */
  lemma {:induction false} ChunkedRoundTrip(s: Stream, body: string, chunks: seq<string>, rest: string)
    requires Valid(s)
    requires forall i :: 0 <= i < |chunks| ==> 0 < |chunks[i]| <= LongMax
    requires Deliverable(s) == EncodeChunks(chunks) + rest
    ensures DecodeChunks(s, body).Ok?
    ensures DecodeChunks(s, body).value.0 == body + Concat(chunks)
    ensures Deliverable(DecodeChunks(s, body).value.1) == rest
    decreases |chunks|
  {
    if |chunks| == 0 {
      var s1 := LastChunkStep(s, body, rest);
      DecodeChunksStops(s, body, s1);
    } else {
      var s3 := FirstChunk(s, body, chunks, rest);
      ChunkedRoundTrip(s3, body + chunks[0], chunks[1..], rest);
      AppendFirst(body, chunks);
    }
  }

  lemma AppendAssoc(a: string, b: string, c: string)
    ensures a + b + c == a + (b + c)
  {
    forall i | 0 <= i < |a| + |b| + |c| ensures (a + b + c)[i] == (a + (b + c))[i] {
      if i >= |a| { assert (a + (b + c))[i] == (b + c)[i - |a|]; }
    }
  }

  lemma AppendFirst(body: string, chunks: seq<string>)
    requires |chunks| > 0
    ensures body + chunks[0] + Concat(chunks[1..]) == body + Concat(chunks)
  {
    var c := Concat(chunks[1..]);
    assert Concat(chunks) == chunks[0] + c;
    AppendAssoc(body, chunks[0], c);
  }

  /** The first chunk of a non-empty sequence is decoded and the loop goes on. */
  lemma FirstChunk(s: Stream, body: string, chunks: seq<string>, rest: string) returns (s3: Stream)
    requires Valid(s) && |chunks| > 0
    requires forall i :: 0 <= i < |chunks| ==> 0 < |chunks[i]| <= LongMax
    requires Deliverable(s) == EncodeChunks(chunks) + rest
    ensures Valid(s3) && Deliverable(s3) == EncodeChunks(chunks[1..]) + rest
    ensures DecodeChunks(s, body) == DecodeChunks(s3, body + chunks[0])
  {
    EncodeChunksCons(chunks, rest);
    s3 := DataChunkStep(s, body, chunks[0], EncodeChunks(chunks[1..]) + rest);
    DecodeChunksGoesOn(s, body, body + chunks[0], s3);
  }

  lemma EncodeChunksCons(chunks: seq<string>, rest: string)
    requires forall i :: 0 <= i < |chunks| ==> 0 < |chunks[i]| <= LongMax
    ensures |chunks| == 0 ==> EncodeChunks(chunks) + rest == "0\r\n" + ("\r\n" + rest)
    ensures |chunks| > 0 ==>
      (EncodeChunks(chunks) + rest ==
       ToDigits(|chunks[0]|, 16) + "\r\n" + (chunks[0] + ("\r\n" + (EncodeChunks(chunks[1..]) + rest))))
  {
  }

  lemma DecodeChunksStops(s: Stream, body: string, s1: Stream)
    requires Valid(s) && ChunkStep(s, body) == Ok((None, s1))
    ensures DecodeChunks(s, body) == Ok((body, s1))
  {
  }

  lemma DecodeChunksGoesOn(s: Stream, body: string, body': string, s1: Stream)
    requires Valid(s) && ChunkStep(s, body) == Ok((Some(body'), s1))
    ensures Valid(s1) && DecodeChunks(s, body) == DecodeChunks(s1, body')
  {
  }

  /** A round of the chunked loop that reads a non-zero size. */
  lemma ChunkStepData(s: Stream, body: string, n: int)
    requires Valid(s) && ParseLong(ReadLine(s).0, 16) == Some(n) && n > 0
    ensures ChunkStep(s, body) ==
      Ok((Some(CopyExact(ReadLine(s).1, body, n).0), ReadLine(CopyExact(ReadLine(s).1, body, n).1).1))
  {
  }

  /** A round of the chunked loop that reads the size zero. */
  lemma ChunkStepLast(s: Stream, body: string)
    requires Valid(s) && ParseLong(ReadLine(s).0, 16) == Some(0)
    ensures ChunkStep(s, body) == Ok((None, ReadLine(ReadLine(s).1).1))
  {
  }

  /** A size line `stol` cannot convert ends the chunked loop with the body read so far. */
  lemma UnreadableSizeEnds(s: Stream, body: string)
    requires Valid(s) && ParseLong(ReadLine(s).0, 16).None?
    ensures DecodeChunks(s, body) == Ok((body, ReadLine(s).1))
  {
    DecodeChunksStops(s, body, ReadLine(s).1);
  }

  /** The size zero ends the chunked loop after one more line, the body unchanged. */
  lemma ZeroSizeEnds(s: Stream, body: string)
    requires Valid(s) && ParseLong(ReadLine(s).0, 16) == Some(0)
    ensures DecodeChunks(s, body) == Ok((body, ReadLine(ReadLine(s).1).1))
  {
    ChunkStepLast(s, body);
    DecodeChunksStops(s, body, ReadLine(ReadLine(s).1).1);
  }

  /** A size line as the sender writes it reads back as that size. */
  lemma SizeLineRead(s: Stream, n: nat, tail: string) returns (s1: Stream)
    requires Valid(s) && n <= LongMax
    requires Deliverable(s) == ToDigits(n, 16) + "\r\n" + tail
    ensures s1 == ReadLine(s).1 && Valid(s1)
    ensures ReadLine(s).0 == ToDigits(n, 16) + "\r\n"
    ensures ParseLong(ReadLine(s).0, 16) == Some(n)
    ensures Deliverable(s1) == tail
  {
    var size := ToDigits(n, 16);
    assert Lacks(size, '\n') by {
      forall j | 0 <= j < |size| ensures size[j] != '\n' {
        assert IsDigitOf(size[j], 16);
      }
    }
    TerminatedCrlf(size);
    ReadLineOf(s, size + "\r\n", tail);
    ParseToDigits(n, 16, "\r\n");
    s1 := ReadLine(s).1;
  }

  /** Reading exactly the bytes in front of the stream. */
  lemma CopyExactOf(s: Stream, body: string, c: string, tail: string) returns (s1: Stream)
    requires Valid(s) && Deliverable(s) == c + tail
    ensures s1 == CopyExact(s, body, |c|).1 && Valid(s1)
    ensures CopyExact(s, body, |c|).0 == body + c
    ensures Deliverable(s1) == tail
  {
    assert (c + tail)[..|c|] == c;
    assert (c + tail)[|c|..] == tail;
    s1 := CopyExact(s, body, |c|).1;
  }

  /** The CRLF that closes a chunk, or the whole chunked body. */
  lemma CrlfRead(s: Stream, tail: string) returns (s1: Stream)
    requires Valid(s) && Deliverable(s) == "\r\n" + tail
    ensures s1 == ReadLine(s).1 && Valid(s1)
    ensures Deliverable(s1) == tail
  {
    TerminatedCrlf([]);
    ReadLineOf(s, "\r\n", tail);
    s1 := ReadLine(s).1;
  }

  /** The line `0`, CRLF, then the empty line: the loop stops with the body unchanged. */
  lemma LastChunkStep(s: Stream, body: string, rest: string) returns (s2: Stream)
    requires Valid(s) && Deliverable(s) == "0\r\n" + ("\r\n" + rest)
    ensures ChunkStep(s, body) == Ok((None, s2)) && Deliverable(s2) == rest && Valid(s2)
  {
    assert ToDigits(0, 16) == "0";
    var s1 := SizeLineRead(s, 0, "\r\n" + rest);
    s2 := CrlfRead(s1, rest);
    ChunkStepLast(s, body);
  }

  /** One data chunk: the loop goes on with the chunk appended. */
  lemma DataChunkStep(s: Stream, body: string, c: string, rest: string) returns (s3: Stream)
    requires Valid(s) && 0 < |c| <= LongMax
    requires Deliverable(s) == ToDigits(|c|, 16) + "\r\n" + (c + ("\r\n" + rest))
    ensures ChunkStep(s, body) == Ok((Some(body + c), s3)) && Deliverable(s3) == rest && Valid(s3)
  {
    var s1 := SizeLineRead(s, |c|, c + ("\r\n" + rest));
    var s2 := CopyExactOf(s1, body, c, "\r\n" + rest);
    s3 := CrlfRead(s2, rest);
    ChunkStepData(s, body, |c|);
  }

  /** The status line and a written header block read back; the body starts at `tail`. */
  lemma ResponseHead(s: Stream, status: int, statusLine: string, lines: seq<string>, tail: string)
    returns (s2: Stream)
    requires Valid(s) && Terminated(statusLine) && HeaderLinesWritten(lines)
    requires ApplyHeaders(NoHeaders, lines).Ok?
    requires Deliverable(s) == statusLine + (Concat(lines) + "\r\n" + tail)
    ensures Valid(s2) && Deliverable(s2) == tail
    ensures var h := ApplyHeaders(NoHeaders, lines).value;
      ReadResponse(s, status) ==
        match ReadBody(s2, h)
        case Err(e) => Err(e)
        case Ok((body, s3)) => Ok(Framed(HttpResponse(status, h.fields, body), h.close || BodyKindOf(h).UntilClose?, s3))
  {
    ReadLineOf(s, statusLine, Concat(lines) + "\r\n" + tail);
    HeaderBlockRoundTrip(ReadLine(s).1, lines, tail);
    s2 := ReadHeaderLines(ReadLine(s).1).rest;
  }

  /** Round trip of a response with a content-length: the body is exactly the
      announced bytes, whatever else the header block says, and reading stops there. */
  lemma LengthDelimitedRoundTrip(s: Stream, status: int, statusLine: string, lines: seq<string>,
                                 body: string, rest: string)
    requires Valid(s) && Terminated(statusLine) && HeaderLinesWritten(lines)
    requires ApplyHeaders(NoHeaders, lines).Ok?
    requires ApplyHeaders(NoHeaders, lines).value.contentLength == |body|
    requires Deliverable(s) == statusLine + (Concat(lines) + "\r\n" + (body + rest))
    ensures ReadResponse(s, status).Ok?
    ensures var f := ReadResponse(s, status).value;
      f.response == HttpResponse(status, ApplyHeaders(NoHeaders, lines).value.fields, body) &&
      f.closeConnection == ApplyHeaders(NoHeaders, lines).value.close &&
      Deliverable(f.rest) == rest
  {
    var s2 := ResponseHead(s, status, statusLine, lines, body + rest);
    var s3 := CopyExactOf(s2, [], body, rest);
    assert [] + body == body;
  }

  /** Round trip of a chunked response without a content-length: the body is the
      concatenated chunks, and reading stops after the last chunk. */
  lemma ChunkedResponseRoundTrip(s: Stream, status: int, statusLine: string, lines: seq<string>,
                                 chunks: seq<string>, rest: string)
    requires Valid(s) && Terminated(statusLine) && HeaderLinesWritten(lines)
    requires ApplyHeaders(NoHeaders, lines).Ok?
    requires ApplyHeaders(NoHeaders, lines).value.contentLength < 0
    requires ApplyHeaders(NoHeaders, lines).value.chunked
    requires forall i :: 0 <= i < |chunks| ==> 0 < |chunks[i]| <= LongMax
    requires Deliverable(s) == statusLine + (Concat(lines) + "\r\n" + (EncodeChunks(chunks) + rest))
    ensures ReadResponse(s, status).Ok?
    ensures var f := ReadResponse(s, status).value;
      f.response == HttpResponse(status, ApplyHeaders(NoHeaders, lines).value.fields, Concat(chunks)) &&
      f.closeConnection == ApplyHeaders(NoHeaders, lines).value.close &&
      Deliverable(f.rest) == rest
  {
    var s2 := ResponseHead(s, status, statusLine, lines, EncodeChunks(chunks) + rest);
    ChunkedRoundTrip(s2, [], chunks, rest);
    assert [] + Concat(chunks) == Concat(chunks);
  }

  /** Round trip of a response with neither framing header: the body is everything up
      to the end of the input, and the connection is closed afterwards. */
  lemma CloseDelimitedRoundTrip(s: Stream, status: int, statusLine: string, lines: seq<string>,
                                body: string)
    requires Valid(s) && Terminated(statusLine) && HeaderLinesWritten(lines)
    requires ApplyHeaders(NoHeaders, lines).Ok?
    requires ApplyHeaders(NoHeaders, lines).value.contentLength < 0
    requires !ApplyHeaders(NoHeaders, lines).value.chunked
    requires Deliverable(s) == statusLine + (Concat(lines) + "\r\n" + body)
    ensures ReadResponse(s, status).Ok?
    ensures var f := ReadResponse(s, status).value;
      f.response == HttpResponse(status, ApplyHeaders(NoHeaders, lines).value.fields, body) &&
      f.closeConnection && Deliverable(f.rest) == []
  {
    var s2 := ResponseHead(s, status, statusLine, lines, body);
  }

  /** `Content-Length: n` as a server writes it sets the length to `n`. */
  lemma ContentLengthHeader(h: Headers, n: nat)
    requires n <= LongMax
    ensures ApplyHeader(h, FieldLine("Content-Length", ToDigits(n, 10))) ==
      Ok(h.(fields := h.fields["content-length" := ToDigits(n, 10)], contentLength := n))
    ensures Terminated(FieldLine("Content-Length", ToDigits(n, 10)))
    ensures !IsBlankLine(FieldLine("Content-Length", ToDigits(n, 10)))
  {
    LowerNames();
    KnownField("Content-Length", "content-length", ToDigits(n, 10));
    ParseToDigits(n, 10, []);
    assert ToDigits(n, 10) + [] == ToDigits(n, 10);
  }

  /** `Transfer-Encoding: chunked` as a server writes it sets the chunked flag. */
  lemma ChunkedHeader(h: Headers)
    ensures ApplyHeader(h, FieldLine("Transfer-Encoding", "chunked")) ==
      Ok(h.(fields := h.fields["transfer-encoding" := "chunked"], chunked := true))
    ensures Terminated(FieldLine("Transfer-Encoding", "chunked"))
    ensures !IsBlankLine(FieldLine("Transfer-Encoding", "chunked"))
  {
    LowerNames();
    KnownField("Transfer-Encoding", "transfer-encoding", "chunked");
    ContainsItself("chunked");
  }

  /** `Connection: close` as a server writes it sets the close flag. */
  lemma CloseHeader(h: Headers)
    ensures ApplyHeader(h, FieldLine("Connection", "close")) ==
      Ok(h.(fields := h.fields["connection" := "close"], close := true))
    ensures Terminated(FieldLine("Connection", "close"))
    ensures !IsBlankLine(FieldLine("Connection", "close"))
  {
    LowerNames();
    KnownField("Connection", "connection", "close");
    ContainsItself("close");
  }

  /** A header with a capitalised name splits into the lower-case name and the value. */
  lemma KnownField(name: string, lower: string, value: string)
    requires name == "Content-Length" || name == "Transfer-Encoding" || name == "Connection"
    requires lower == ToLower(name)
    requires value == "chunked" || value == "close" || forall i :: 0 <= i < |value| ==> IsDigitOf(value[i], 10)
    ensures SplitHeaderLine(FieldLine(name, value)) == Field(lower, value)
    ensures Terminated(FieldLine(name, value)) && !IsBlankLine(FieldLine(name, value))
  {
    assert WellFormedField(name, value) by {
      if value != "chunked" && value != "close" {
        forall i | 0 <= i < |value| ensures !IsLineEnd(value[i]) {
          assert IsDigitOf(value[i], 10);
        }
      }
    }
    SplitFieldLine(name, value);
  }

  lemma LowerNames()
    ensures ToLower("Content-Length") == "content-length"
    ensures ToLower("Transfer-Encoding") == "transfer-encoding"
    ensures ToLower("Connection") == "connection"
  {
  }

  lemma ContainsItself(w: string)
    ensures Contains(w, w)
  {
    assert w[0..|w|] == w;
  }

  lemma ApplyOne(h: Headers, a: string)
    ensures ApplyHeaders(h, [a]) == ApplyHeader(h, a)
  {
    assert [a][..0] == [];
  }

  lemma ApplyTwo(h: Headers, a: string, b: string)
    requires ApplyHeader(h, a).Ok?
    ensures ApplyHeaders(h, [a, b]) == ApplyHeader(ApplyHeader(h, a).value, b)
  {
    assert [a, b][..1] == [a];
    ApplyOne(h, a);
  }

  /** A response announcing `Content-Length` reads back its body and keeps the
      connection. */
  lemma ContentLengthMessage(s: Stream, status: int, statusLine: string, body: string, rest: string)
    requires Valid(s) && Terminated(statusLine) && |body| <= LongMax
    requires Deliverable(s) ==
      statusLine + (FieldLine("Content-Length", ToDigits(|body|, 10)) + "\r\n" + (body + rest))
    ensures ReadResponse(s, status).Ok?
    ensures var f := ReadResponse(s, status).value;
      f.response == HttpResponse(status, map["content-length" := ToDigits(|body|, 10)], body) &&
      !f.closeConnection && Deliverable(f.rest) == rest
  {
    var line := FieldLine("Content-Length", ToDigits(|body|, 10));
    OneLengthLine(|body|);
    LengthDelimitedRoundTrip(s, status, statusLine, [line], body, rest);
  }

  /** With both `Transfer-Encoding: chunked` and `Content-Length`, the length decides
      the body, the reverse of the precedence in section 6.3 of RFC 9112. */
  lemma LengthBeatsChunked(s: Stream, status: int, statusLine: string, body: string, rest: string)
    requires Valid(s) && Terminated(statusLine) && |body| <= LongMax
    requires Deliverable(s) ==
      statusLine + (FieldLine("Transfer-Encoding", "chunked") + FieldLine("Content-Length", ToDigits(|body|, 10))
                    + "\r\n" + (body + rest))
    ensures ReadResponse(s, status).Ok?
    ensures var f := ReadResponse(s, status).value;
      f.response.body == body && !f.closeConnection && Deliverable(f.rest) == rest
  {
    var te := FieldLine("Transfer-Encoding", "chunked");
    var cl := FieldLine("Content-Length", ToDigits(|body|, 10));
    ChunkedThenLength(|body|);
    LengthDelimitedRoundTrip(s, status, statusLine, [te, cl], body, rest);
  }

  /** A response announcing `Transfer-Encoding: chunked` reads back the concatenated
      chunks and keeps the connection. */
  lemma ChunkedMessage(s: Stream, status: int, statusLine: string, chunks: seq<string>, rest: string)
    requires Valid(s) && Terminated(statusLine)
    requires forall i :: 0 <= i < |chunks| ==> 0 < |chunks[i]| <= LongMax
    requires Deliverable(s) ==
      statusLine + (FieldLine("Transfer-Encoding", "chunked") + "\r\n" + (EncodeChunks(chunks) + rest))
    ensures ReadResponse(s, status).Ok?
    ensures var f := ReadResponse(s, status).value;
      f.response == HttpResponse(status, map["transfer-encoding" := "chunked"], Concat(chunks)) &&
      !f.closeConnection && Deliverable(f.rest) == rest
  {
    var line := FieldLine("Transfer-Encoding", "chunked");
    ChunkedHeader(NoHeaders);
    ApplyOne(NoHeaders, line);
    assert Concat([line]) == line;
    ChunkedResponseRoundTrip(s, status, statusLine, [line], chunks, rest);
  }

  /** A chunked response whose first size line is `-1`: `reserve` on the empty body
      throws, and reading the response ends in that exception. */
  lemma NegativeChunkSizeThrows(s: Stream, status: int, statusLine: string, rest: string)
    requires Valid(s) && Terminated(statusLine)
    requires Deliverable(s) ==
      statusLine + (FieldLine("Transfer-Encoding", "chunked") + "\r\n" + ("-1\r\n" + rest))
    ensures ReadResponse(s, status) == Err(ReserveLengthError)
  {
    var line := FieldLine("Transfer-Encoding", "chunked");
    ChunkedHeader(NoHeaders);
    ApplyOne(NoHeaders, line);
    assert Concat([line]) == line;
    var s2 := ResponseHead(s, status, statusLine, [line], "-1\r\n" + rest);
    NegativeSizeLine(s2, rest);
  }

  /** The size line `-1` in front of an empty body. */
  lemma NegativeSizeLine(s: Stream, rest: string)
    requires Valid(s) && Deliverable(s) == "-1\r\n" + rest
    ensures DecodeChunks(s, []) == Err(ReserveLengthError)
  {
    TerminatedCrlf("-1");
    ReadLineOf(s, "-1\r\n", rest);
    MinusOneParses();
  }

  /** `stol("-1\r\n", nullptr, 16)` is -1. */
  lemma MinusOneParses()
    ensures ParseLong("-1\r\n", 16) == Some(-1)
  {
    var line := "-1\r\n";
    assert SpaceRun(line) == 0 by { assert !IsCSpace(line[0]); }
    var v := line[1..];
    assert DigitRun(v, 16) == 1 by {
      assert IsDigitOf(v[0], 16) && !IsDigitOf(v[1], 16);
      assert DigitRun(v[1..], 16) == 0;
    }
    assert ValueOf(v[..1], 16) == 1 by {
      assert v[..1][..0] == [];
    }
  }

  /** A response without framing headers: the body is the rest of the input and the
      connection is closed. */
  lemma CloseMessage(s: Stream, status: int, statusLine: string, body: string)
    requires Valid(s) && Terminated(statusLine)
    requires Deliverable(s) == statusLine + ("\r\n" + body)
    ensures ReadResponse(s, status).Ok?
    ensures var f := ReadResponse(s, status).value;
      f.response == HttpResponse(status, map[], body) && f.closeConnection && Deliverable(f.rest) == []
  {
    assert Concat([]) + "\r\n" + body == "\r\n" + body;
    CloseDelimitedRoundTrip(s, status, statusLine, [], body);
  }

  /** `Connection: close` next to a content-length closes the connection after the body. */
  lemma CloseHeaderMessage(s: Stream, status: int, statusLine: string, body: string, rest: string)
    requires Valid(s) && Terminated(statusLine) && |body| <= LongMax
    requires Deliverable(s) ==
      statusLine + (FieldLine("Content-Length", ToDigits(|body|, 10)) + FieldLine("Connection", "close")
                    + "\r\n" + (body + rest))
    ensures ReadResponse(s, status).Ok?
    ensures var f := ReadResponse(s, status).value;
      f.response.body == body && f.closeConnection && Deliverable(f.rest) == rest
  {
    var cl := FieldLine("Content-Length", ToDigits(|body|, 10));
    var cc := FieldLine("Connection", "close");
    LengthThenClose(|body|);
    LengthDelimitedRoundTrip(s, status, statusLine, [cl, cc], body, rest);
  }

  lemma OneLengthLine(n: nat)
    requires n <= LongMax
    ensures var cl := FieldLine("Content-Length", ToDigits(n, 10));
      ApplyHeaders(NoHeaders, [cl]) == Ok(Headers(map["content-length" := ToDigits(n, 10)], n, false, false)) &&
      HeaderLinesWritten([cl]) && Concat([cl]) == cl
  {
    var cl := FieldLine("Content-Length", ToDigits(n, 10));
    ContentLengthHeader(NoHeaders, n);
    ApplyOne(NoHeaders, cl);
    assert Concat([cl]) == cl;
  }

  lemma ChunkedThenLength(n: nat)
    requires n <= LongMax
    ensures var te := FieldLine("Transfer-Encoding", "chunked");
      var cl := FieldLine("Content-Length", ToDigits(n, 10));
      ApplyHeaders(NoHeaders, [te, cl]).Ok? && ApplyHeaders(NoHeaders, [te, cl]).value.contentLength == n &&
      !ApplyHeaders(NoHeaders, [te, cl]).value.close &&
      HeaderLinesWritten([te, cl]) && Concat([te, cl]) == te + cl
  {
    var te := FieldLine("Transfer-Encoding", "chunked");
    var cl := FieldLine("Content-Length", ToDigits(n, 10));
    ChunkedHeader(NoHeaders);
    ContentLengthHeader(ApplyHeader(NoHeaders, te).value, n);
    ApplyTwo(NoHeaders, te, cl);
    TwoLines(te, cl);
  }

  lemma LengthThenClose(n: nat)
    requires n <= LongMax
    ensures var cl := FieldLine("Content-Length", ToDigits(n, 10));
      var cc := FieldLine("Connection", "close");
      ApplyHeaders(NoHeaders, [cl, cc]).Ok? && ApplyHeaders(NoHeaders, [cl, cc]).value.contentLength == n &&
      ApplyHeaders(NoHeaders, [cl, cc]).value.close &&
      HeaderLinesWritten([cl, cc]) && Concat([cl, cc]) == cl + cc
  {
    var cl := FieldLine("Content-Length", ToDigits(n, 10));
    var cc := FieldLine("Connection", "close");
    ContentLengthHeader(NoHeaders, n);
    CloseHeader(ApplyHeader(NoHeaders, cl).value);
    ApplyTwo(NoHeaders, cl, cc);
    TwoLines(cl, cc);
  }

  lemma TwoLines(a: string, b: string)
    requires Terminated(a) && !IsBlankLine(a) && Terminated(b) && !IsBlankLine(b)
    ensures HeaderLinesWritten([a, b]) && Concat([a, b]) == a + b
  {
    assert [a, b][1..] == [b];
    assert Concat([b]) == b + Concat([]);
  }

  /** The response `HTTP/1.1 200 OK`, an empty header block and the body `hello`. */
  const ShortResponse: string := "HTTP/1.1 200 OK\r\n\r\nhello"

  /** A counterexample for the close-delimited loop as written: the server sends the whole
      response in one segment and closes. The first read takes all of it into the buffer,
      so after the header block the body `hello` is buffered and nothing is left to
      `recv`: the corrected reader returns `hello`, the loop as written returns nothing. */
  lemma ShortResponseLosesBody()
    ensures var block := ReadHeaderLines(ReadLine(Open([ShortResponse], false)).1);
      block.lines == [] &&
      ReadBody(block.rest, NoHeaders).Ok? && ReadBody(block.rest, NoHeaders).value.0 == "hello" &&
      ReadBodyAsWritten(block.rest, NoHeaders).Ok? && ReadBodyAsWritten(block.rest, NoHeaders).value.0 == []
  {
    ShortHead();
    var s3 := Stream(ShortResponse, 19, false, false, []);
    CloseDelimitedBodies(s3, NoHeaders);
    ShortBodies();
  }

  /** After the header block, `hello` is buffered and nothing is pending. */
  lemma ShortBodies()
    ensures ReadToClose(Stream(ShortResponse, 19, false, false, [])).0 == "hello"
    ensures RawReadToClose(Stream(ShortResponse, 19, false, false, [])).0 == []
  {
    var s3 := Stream(ShortResponse, 19, false, false, []);
    assert Unread(s3) == ShortResponse[19..] == "hello";
    assert Deliverable(s3) == "hello" + Concat([]);
  }

  lemma ShortHead()
    ensures ReadHeaderLines(ReadLine(Open([ShortResponse], false)).1) ==
      HeaderBlock([], "\r\n", Stream(ShortResponse, 19, false, false, []))
  {
    ShortFill();
    ReadLineAfterFill(Open([ShortResponse], false));
    ShortStatusLine();
    ShortHeaderBlock();
  }

  lemma CloseDelimitedBodies(s: Stream, h: Headers)
    requires Valid(s) && BodyKindOf(h).UntilClose?
    ensures ReadBody(s, h) == Ok(ReadToClose(s)) && ReadBodyAsWritten(s, h) == Ok(RawReadToClose(s))
  {
  }

  lemma ShortFill()
    ensures Fill(Open([ShortResponse], false)) == (Stream(ShortResponse, 0, false, false, []), |ShortResponse|)
  {
    var m := ShortResponse;
    var segments: seq<string> := [m];
    assert m[..|m|] == m;
    assert segments[1..] == [];
  }

  lemma ShortStatusLine()
    ensures ReadLine(Stream(ShortResponse, 0, false, false, [])).1 == Stream(ShortResponse, 17, false, false, [])
  {
    FindCharIs(ShortResponse, '\n', 0, 16);
  }

  lemma ShortHeaderBlock()
    ensures ReadHeaderLines(Stream(ShortResponse, 17, false, false, [])) ==
      HeaderBlock([], "\r\n", Stream(ShortResponse, 19, false, false, []))
  {
    var s2 := Stream(ShortResponse, 17, false, false, []);
    FindCharIs(ShortResponse, '\n', 17, 18);
    assert ShortResponse[17..19] == "\r\n";
  }

  /** `read_line` on an empty buffer fills it and starts over. */
  lemma ReadLineAfterFill(s: Stream)
    requires Valid(s) && !s.error && s.pos >= |s.buf| && Fill(s).1 > 0
    ensures ReadLine(s) == ReadLine(Fill(s).0)
  {
  }
}

=== FILE: wrappers.dfy ===
/** Failure-carrying result types shared by the whole model. */
module Wrappers {

  /** A value that may be absent, in place of `std::string::npos` or a null pointer. */
  datatype Option<+T> = None | Some(value: T)

  /** Either a value or the reason the operation gave up. */
  datatype Result<+R, +E> = Ok(value: R) | Err(error: E)

  function Min(a: int, b: int): int {
    if a < b then a else b
  }
}
